=== FILE: README.md ===
# Arecanut auction marketplace: a Dafny model of the server core

This project models the server side of an arecanut auction marketplace.
Farmers list lots of produce for auction. Approved traders bid on them. A
periodic sweep closes expired auctions and records a pending transaction for
each winning bid. Winners then initiate payment, and the farmer or an admin
updates its status. Administrators approve users, terminate auctions and read
dashboard counters. A public statistics endpoint summarises completed sales.

All records live in one immutable `Store`. It holds four sequences: auctions,
bids, transactions and users. A record's position is its id. This is a
modelling assumption (see "Left out"): ids are taken to follow creation order,
and no modelled operation deletes a row. So "unknown id" means an id past the
end, and the handlers' `createdAt DESC` order is descending id.

Each request handler is a pure function. It returns `Result<Store>`: either
`Ok` with the new store or `Err` with a reason. A refused request changes
nothing. Some inputs come from outside the server:

- the current time (`now`) and the start of today are integer parameters;
- password comparison is the parameter `matches`;
- the authenticated caller is a `Caller(id, role)` value.

Modules follow the source layout:

- `Market`: entities and the shared queries, such as the winning bid and the first transaction of an auction.
- `AuctionService`: `closeAuction` and the expiry sweep.
- `TraderController`, `AdminController`, `FarmerController`, `StatsController`, `AuthController`: the controllers.
- `PaymentRoutes`: the two payment handlers.
- `Schemas`: the request schemas as validity predicates.
- `Strings`: JavaScript's `trim` and substring search.
- `Invariants`: a store invariant, proved to hold in every store reachable from the empty one by any sequence of requests.
- `EdgeCases`: boundary behaviour and one complete auction.

The invariant says three things:

- Each auction's accepted bids rise strictly above its base price.
- Its cached highest bid is the last of them.
- No auction has two transactions, and every completed auction has one, at its winning bid and to its winner.

The invariant depends on one caller obligation. `closeAuction` does not
check the status, and both of its callers close only active auctions. Bids
reach the store through `placeBid` as written, whatever the caller's role.
The role-checked bid of the finding below accepts a subset of those bids, so
the invariant holds for it too.

## Model

| member | source | states |
|---|---|---|
| AuctionService.CloseAuction | server/services/auctionService.js:8-60 | An unknown id leaves the store unchanged. Otherwise only that auction changes: it becomes `completed` if it has bids and `closed` if not. Its update time is stamped only when the status changes; closing an auction already in its target status leaves the record as it was. Bids and users are untouched. The only transaction appended is that auction's settlement. |
| AuctionService.SettlementOf | server/services/auctionService.js:31-51 | Closing records at most one transaction. It records one exactly when the auction has bids, and that one belongs to the auction and settles its winning bid. |
| AuctionService.CloseAuctionSettlesWinner | server/services/auctionService.js:18-51 | Without bids, closing appends no transaction. With bids, it appends exactly one pending transaction. That transaction is for the auction's farmer, dated now. Its amount and trader are those of a bid of that auction that no other bid of it exceeds. |
| AuctionService.ExpiredIds | server/services/auctionService.js:68-73 | The sweep's query selects exactly the auctions that are `active` with `endTime <= now`, each once. The query has no `ORDER BY`; the model lists them in ascending id order, its own choice. |
| AuctionService.CloseEachRecords | server/services/auctionService.js:77-79 | Closing a list of auctions one after another appends exactly their settlements, in closing order. |
| AuctionService.CloseEachCloses | server/services/auctionService.js:77-79 | Closing a list of distinct auctions gives each one the status its own bids dictate. |
| AuctionService.CloseEachFrame | server/services/auctionService.js:77-79 | Closing a list of auctions leaves every auction not on the list unchanged. |
| AuctionService.SettlementsFind | server/services/auctionService.js:77-79 | When a listed auction has bids, the settlements of a list include a transaction for it. The first such transaction settles its winning bid. |
| AuctionService.SettlementsCoverWinners | server/services/auctionService.js:31-51 | The auctions settled by closing a list are exactly the listed auctions that have bids. |
| AuctionService.SettlementsAscending | server/services/auctionService.js:77-79 | Closing ascending ids settles auctions in ascending order, so none is settled twice in one sweep. |
| AuctionService.ExpiredCount | server/services/auctionService.js:81 | The returned count is the number of expired active auctions. |
| AuctionService.Sweep | server/services/auctionService.js:63-86 | The returned count is the number of expired active auctions. A sweep with none returns 0 and changes nothing. Every expired active auction is closed; every other auction is unchanged. Afterwards no auction is active and expired. |
| AuctionService.SweepSettlesEachWinnerOnce | server/services/auctionService.js:63-86 | The sweep keeps the existing transactions as a prefix. Each new one settles the winning bid of an auction that was expired. Together they settle exactly the expired auctions with bids, none of them twice. |
| Market.WinningBid | server/services/auctionService.js:18-29 | The winning bid is absent exactly when the auction has no bids. When present, it is a bid of that auction and no other bid of it is higher. |
| Market.MaxBid | server/services/auctionService.js:27-28 | The highest-amount bid of a list: a member of it that no other element exceeds, absent only for the empty list. |
| Market.FindTransaction | server/routes/paymentRoutes.js:41 | The lookup by auction finds a transaction of that auction, and finds none exactly when no transaction belongs to it. The query has no `ORDER BY`; the model takes the first, and reachable stores hold at most one. |
| Market.BidsFor | server/controllers/traderController.js:54-55 | The bids of one auction: exactly the ledger's bids that name it. |
| Market.BidsForCounts | server/controllers/traderController.js:54-55 | Each bid of the auction occurs in the selection as often as in the ledger, and no other bid occurs. |
| Market.BidsForConcat | server/controllers/traderController.js:54-55 | The selection keeps ledger order: the bids of a ledger made of two parts are those of the first part followed by those of the second. |
| Market.FindTransactionAppend | server/routes/paymentRoutes.js:41 | When a list holds no transaction of an auction, appending more transactions moves the first one of that auction only by the list's length. |
| Market.MaxOfIncreasingIsLast | server/controllers/traderController.js:88-103 | On a ledger whose amounts rise strictly, the highest bid is the last one accepted. |
| TraderController.BrowseAuctions | server/controllers/traderController.js:7-36 | Only active auctions are returned. A given location or variety must occur in the auction's text. Base prices lie within the given inclusive bounds. Every matching auction is included; with no filters, every active auction is. The list is newest first. |
| TraderController.SortByAmountDesc | server/controllers/traderController.js:63 | Ordering bids by amount, highest first, is a permutation of the input. |
| TraderController.GetAuctionById | server/controllers/traderController.js:39-70 | An unknown id is not found. Otherwise the result is the auction together with exactly its bids, as a permutation, highest amount first. |
| TraderController.SortOfIncreasingIsReverse | server/controllers/traderController.js:54-64 | For a strictly rising ledger, the amount-descending bid history is the ledger read backwards. |
| TraderController.PlaceBid | server/controllers/traderController.js:73-109 | The checks run in this order: unknown auction, not active, now after the end time, amount not above both the current highest bid and the base price. A bid at the end time itself passes. A bid is accepted exactly when all checks pass. Acceptance appends one bid with the caller's id and makes its amount that auction's highest bid. No other auction, transaction or user changes. |
| TraderController.PlaceBidAsTrader | server/controllers/traderController.js:73-103 | The bid handler with the missing role check added. A non-trader is refused. A trader's bid is judged exactly as `placeBid` judges it. |
| AdminController.GetPendingUsers | server/controllers/adminController.js:9-21 | Exactly the unapproved non-admin users, each once. |
| AdminController.ApproveUser | server/controllers/adminController.js:24-36 | An unknown user is not found. Otherwise that user becomes approved and nothing else changes. |
| AdminController.GetAllAuctions | server/controllers/adminController.js:49-74 | With no filter, an empty one or "all", every auction is returned. Otherwise exactly the auctions whose stored status name equals that text, compared as exact text, are returned. The list is newest first. |
| AdminController.TerminateAuction | server/controllers/adminController.js:143-163 | An unknown auction is not found and an inactive one is refused. It succeeds exactly on an active auction, and the effect is exactly that of closing it. |
| AdminController.SecondTerminateFails | server/controllers/adminController.js:152-157 | Terminating the same auction a second time is refused as not active. |
| AdminController.StatusCountsPartition | server/controllers/adminController.js:177-182 | The four per-status auction counts add up to the total. |
| AdminController.RoleCountsPartition | server/controllers/adminController.js:168-172 | The non-admin user count is the farmer count plus the trader count. |
| AdminController.DashboardStats | server/controllers/adminController.js:166-216 | Each counter is the count of the rows its query selects: non-admin users, farmers, traders, unapproved non-admins, and auctions with each status. The user total is farmers plus traders, and pending approvals do not exceed it. Active, closed and completed auctions together do not exceed the total. The bid and transaction counters are the table sizes. The transaction value is the sum of all final amounts. |
| Market.CountIsSize | server/controllers/adminController.js:168-182 | A count is the number of positions whose row the condition accepts. |
| AdminController.DashboardCountsRoles | server/controllers/adminController.js:171-175 | The farmer, trader and pending-approval counters are the numbers of users with that role or awaiting approval. |
| AdminController.DashboardCountsStatuses | server/controllers/adminController.js:177-182 | The active, closed and completed counters are the numbers of auctions with that status. |
| AdminController.TotalValueAppend | server/controllers/adminController.js:189-192 | Each appended transaction adds exactly its final amount to the total value. |
| PaymentRoutes.CreatePayment | server/routes/paymentRoutes.js:9-77 | The refusals come in this order: a non-trader, an unknown auction, an auction neither closed nor completed, a caller without the highest bid (another trader's winning bid is "not the winner"). An existing transaction that is already paid is refused as already paid. The request succeeds exactly when the caller is the trader holding the highest bid of a closed or completed auction and no paid transaction stands in the way. An unpaid one gets only the new method, notes and date, and no record is added. With no transaction, exactly one pending transaction is appended, at the highest bid, to the caller, for the auction's farmer. Auctions, bids and users never change. |
| PaymentRoutes.CreatePaymentNeverDuplicates | server/routes/paymentRoutes.js:41-70 | From any store where an auction has at most one transaction, this route leaves it with at most one. |
| PaymentRoutes.UpdateKeepsCount | server/routes/paymentRoutes.js:49-57 | Updating a transaction in place does not change any auction's transaction count. |
| PaymentRoutes.UpdatePaymentStatus | server/routes/paymentRoutes.js:124-145 | An unknown payment is not found. The call succeeds exactly when the caller is the payment's farmer or an admin. Only that payment's status changes, to the given text. |
| FarmerController.CreateAuction | server/controllers/farmerController.js:4-33 | The new auction takes the next id and belongs to the caller. It starts active, with its current highest bid at the base price. Its terms are copied from the request. Nothing else changes. |
| FarmerController.GetMyAuctions | server/controllers/farmerController.js:36-46 | Exactly the caller's auctions, newest first. |
| FarmerController.CreatedAuctionListedFirst | server/controllers/farmerController.js:16-41 | A freshly created auction heads its farmer's list. |
| FarmerController.FirstBidMustExceedBasePrice | server/controllers/farmerController.js:22 | A new auction accepts a bid exactly when the bid is above the base price and placed no later than the end time. A lower bid in time is refused as too low. |
| FarmerController.CreateAuctionRoute | server/routes/farmerRoutes.js:13-18 | The auction schema runs first: the request fails as invalid input exactly when the schema refuses it. An accepted auction has base price at least 1, quantity from 1 to 100000, and an end time after now. |
| FarmerController.FreshAuctionSurvivesSweep | server/validators/schemas.js:35 | The end time must lie strictly in the future, so a sweep at creation time leaves the new auction active. |
| FarmerController.AcceptedBidPassesBidAmountRule | server/validators/schemas.js:40-43 | Any bid a listed auction accepts is at least 2. The bid schema's amount rule therefore never refuses it, and the schema's verdict rests on the auction key alone. |
| StatsController.CompletedAuctions | server/controllers/statsController.js:11-14 | The query selects exactly the completed auctions, each once. |
| StatsController.SortByDateDesc | server/controllers/statsController.js:18 | Ordering rows by completion date, latest first, is a permutation of the input. |
| StatsController.CompletedRowsSound | server/controllers/statsController.js:53-63 | In any ordering of the completed auctions' rows, every row reports a completed auction, with that auction's own id, terms, winning bid, farmer name and completion date. |
| StatsController.CompletedRowsComplete | server/controllers/statsController.js:11-19 | In any ordering of the completed auctions' rows, every completed auction has a row. |
| StatsController.TodayAuctions | server/controllers/statsController.js:25 | Exactly those listed auctions updated at or after the start of today. |
| StatsController.MaxPrice | server/controllers/statsController.js:32 | The maximum price is at least every listed current highest bid and equals one of them. |
| StatsController.CalculateStats | server/controllers/statsController.js:27-43 | No auctions give all zeros. Otherwise: the count is the list length, the volume is the sum of quantities, and the maximum price is an attained upper bound of the sold prices. |
| StatsController.GetMarketStats | server/controllers/statsController.js:5-70 | There is one sale row per completed auction: the rows are a permutation of the completed auctions' rows, every completed auction has a row, and every row is a completed auction carrying that auction's data. Rows are latest first. The overall summary is that of all completed auctions, and today's is that of those updated since the start of today. The overall count equals the number of rows. Today's count does not exceed it. |
| StatsController.FarmerName | server/controllers/statsController.js:61 | The farmer's name, or "Unknown" when the farmer is not on record. |
| StatsController.TodayMaxAtMostOverall | server/controllers/statsController.js:45-46 | Today's highest price never exceeds the overall highest price. |
| StatsController.VolumeSplitsByDay | server/controllers/statsController.js:25-30 | The overall volume is today's volume plus the volume completed before today. |
| AuthController.FindUserByEmail | server/controllers/authController.js:12 | The lookup finds a user with that e-mail, and finds none exactly when nobody has it. The query has no `ORDER BY`; the model takes the first, and registration keeps e-mails unique. |
| AuthController.Register | server/controllers/authController.js:6-36 | Registration fails as "user exists" exactly when the e-mail is on record. Otherwise one unapproved user is appended with the given details. The farm location is kept only for a farmer and the licence only for a trader. Nothing else changes. |
| AuthController.RegisterKeepsEmailsUnique | server/controllers/authController.js:12-13 | Registration keeps e-mails unique as exact texts: no two users hold the same e-mail string. |
| AuthController.RegisterRoute | server/routes/authRoutes.js:7 | The registration schema runs first, so a registered user is never an admin. |
| AuthController.Login | server/controllers/authController.js:39-77 | An unknown e-mail or a wrong password fails with invalid credentials. A matching unapproved non-admin is refused as pending approval. A matching approved user or admin always succeeds. Success reports that user's id, name, e-mail and role. |
| AuthController.LoginRoute | server/routes/authRoutes.js:8 | The login schema runs first: an empty e-mail or password is invalid input. |
| AuthController.RegisteredUserAwaitsApproval | server/controllers/authController.js:25 | A newly registered user cannot log in, even with the right password, until approved. |
| AuthController.ApprovedUserLogsIn | server/controllers/authController.js:53-72 | After approval, the registered e-mail and password log in as that user, with the registered name and role. |
| Schemas.ValidAuction | server/validators/schemas.js:29-37 | The auction schema: variety of 2 to 50, quality grade of 1 to 20 and location of 2 to 200 characters after trimming; quantity from 1 to 100000; base price at least 1; end time strictly after now. |
| Schemas.ValidBid | server/validators/schemas.js:40-43 | The bid schema: an auction key of exactly 24 hexadecimal digits and an amount of at least 1. |
| Schemas.ValidRegister | server/validators/schemas.js:4-20 | The registration schema: name of 2 to 100 characters after trimming, non-blank e-mail, password of 6 to 128 characters, role farmer or trader, phone matching the phone pattern when sent, farm location required of farmers and licence of traders, each non-blank when sent. |
| Schemas.ValidLogin | server/validators/schemas.js:23-26 | The login schema: e-mail and password both present and non-empty. |
| Schemas.ValidAuctionIgnoresPadding | server/validators/schemas.js:29-37 | The auction schema judges trimmed text, so trimming the fields beforehand never changes its verdict. |
| Schemas.PhonePlusPrefix | server/validators/schemas.js:9 | A leading '+' is accepted exactly when the rest is an accepted number that does not itself start with '+'. |
| Schemas.ValidRegisterHasRoleField | server/validators/schemas.js:8-19 | A valid registration is never an admin, and carries the non-blank field its role requires. |
| Schemas.OtherRoleFieldOptional | server/validators/schemas.js:10-19 | The farm location is required exactly of farmers, and the licence exactly of traders. |
| Strings.Trim | server/validators/schemas.js:5 | Trimming never lengthens a text, and what remains neither starts nor ends with white space. |
| Strings.TrimIsPadded | server/validators/schemas.js:5 | What trimming keeps is a contiguous piece of the text with only white space before and after it. |
| Strings.TrimIdempotent | server/validators/schemas.js:5 | Trimming twice is trimming once. |
| Invariants.WinnerIsShownHigh | server/controllers/traderController.js:88-103 | Under the invariant, an auction's winning bid has its current highest bid as amount. |
| Invariants.ActiveUnsettled | server/services/auctionService.js:46-47 | Under the invariant, no transaction belongs to an active auction. |
| Invariants.PlaceBidPreservesInv | server/controllers/traderController.js:88-103 | An accepted bid keeps the invariant. |
| Invariants.PlaceBidKeepsLedgers | server/controllers/traderController.js:88-103 | An accepted bid keeps every ledger rising strictly above its base price, with the cached highest bid as its last amount. |
| Invariants.CloseActivePreservesInv | server/controllers/adminController.js:152-157 | Closing an active auction keeps the invariant. |
| Invariants.SweepPreservesInv | server/services/auctionService.js:63-86 | The sweep keeps the invariant. |
| Invariants.CreatePaymentNeverAppends | server/routes/paymentRoutes.js:41-70 | Under the invariant, payment can be initiated only for a completed auction that already has its transaction. The route then updates that transaction and never appends one. |
| Invariants.CreatePaymentPreservesInv | server/routes/paymentRoutes.js:9-77 | Payment initiation keeps the invariant. |
| Invariants.UpdatePaymentStatusPreservesInv | server/routes/paymentRoutes.js:124-145 | A payment-status update keeps the invariant. |
| Invariants.CreateAuctionPreservesInv | server/controllers/farmerController.js:16-27 | Listing an auction keeps the invariant. |
| Invariants.ApplyPreservesInv | server/services/auctionService.js:8-86 | Every request keeps the invariant. |
| Invariants.ReachableInv | server/services/auctionService.js:8-86 | Every store reachable from the empty store, by any sequence of requests with bids placed as the unchecked handler places them, satisfies the invariant. |
| Invariants.ReachableCacheIsLedgerMax | server/controllers/traderController.js:88-103 | In every reachable store, an auction's accepted bids rise strictly. Once it has any, its current highest bid is the winning amount. |
| Invariants.InvSettlement | server/services/auctionService.js:31-47 | Under the invariant, no auction has two transactions. Each completed auction has one, at its winning bid and to its winner. |
| Invariants.ReachableSettlement | server/services/auctionService.js:31-47 | In every reachable store, no auction has two transactions and every completed auction has one. |
| EdgeCases.CloseTwiceDuplicates | server/services/auctionService.js:8-55 | `closeAuction` does not check the status, so closing an auction with bids twice records two transactions for it. |
| EdgeCases.AcceptedBidWins | server/controllers/traderController.js:88-103 | An accepted bid keeps the invariant. The auction stays active with its end time unchanged, and the new bid is its winning bid. |
| EdgeCases.SweepSettlesExpired | server/services/auctionService.js:63-86 | Under the invariant, a sweep completes an expired active auction that has bids. It leaves the bids alone. The auction's first transaction afterwards is the settlement of its winning bid. |
| EdgeCases.LastBidWinsAtSweep | server/services/auctionService.js:63-86 | When a sweep at or after the end time follows an auction's last bid, the auction completes. It gets a pending transaction at that bid and to that bidder, who is its winner. |
| EdgeCases.BidAtEndTimeSettles | server/controllers/traderController.js:84-86 | A bid at exactly the end time is accepted, and the sweep at that same instant settles the auction at that bid. |
| EdgeCases.NonTraderWinnerBlocksPayment | server/controllers/traderController.js:73-103 | As written, a non-trader's winning bid leaves a completed auction whose payment nobody can initiate. The winner is refused as not a trader; everyone else is refused. |
| EdgeCases.TraderWinnerCanPay | server/routes/paymentRoutes.js:13-57 | With the role check, the winner of a swept auction is a trader who can initiate its payment. |
| EdgeCases.ScenarioSettlesHighestBid | server/services/auctionService.js:63-86 | One auction with base price 1000. Trader A's 1010 is accepted. Trader B's 1005 is refused as too low. Trader A's 1020 is accepted. After the end time, one sweep completes the auction with a single pending transaction of 1020 to trader A. |
| EdgeCases.ScenarioBidding | server/controllers/traderController.js:73-109 | The bidding half of that scenario: the listing becomes auction 0, both of trader A's bids are accepted and trader B's is refused. The auction stays active with a highest bid of 1020. |
| EdgeCases.ScenarioSweep | server/services/auctionService.js:63-86 | The sweep half: the sweep at the end time counts one auction, completes it, and records exactly one pending transaction of 1020 to trader A. |

## Left out

- Express routing, the authentication and admin-check middleware, and HTTP status codes are not modelled. Outcomes are the `Error` values; the caller is a parameter.
- Persistence is not modelled. The Sequelize calls are functions on the store, and a bid's and a transaction's own ids play no part.
- Concurrency is not modelled. The unguarded read-check-write of a bid and a sweep racing a terminate are out of scope: the model is sequential.
- Cron scheduling and `new Date()` are not modelled. Time is the integer parameter `now`.
- bcrypt hashing and JWT signing are left out. The stored password stands for the hash, the parameter `matches` decides a login attempt, and a successful login returns the user details without a token.
- Image upload and deletion through Cloudinary, and image clean-up, are left out as foreign calls.
- The floating-point weighted average price (`avgPrice`, `toFixed`) in the statistics is left out. The integer count, volume and maximum price are modelled.
- The Payment model, `markPaid`, and the approve, reject and edit auction gate are left out. No handler in these files uses the Payment model, and the gate's handlers are not in the admin controller.
- The sweep's error handling is left out. A failure rethrows and stops the batch; the model's closing cannot fail.
- `getAllTransactions`, the admin `getAuctionById`, `getMyBids`, and the payment listings for a trader, a farmer and the admin are left out. They are plain reads.
- `rejectUser` is left out: the model deletes no rows, since ids are positions. Deleting a user is not harmless to the auction lifecycle. `closeAuction` reads the winning bid's trader through the bid's `trader` association (server/services/auctionService.js:18-36). Deleting a trader who holds a winning bid therefore makes that dereference fail and the close throw. The model's `CloseAuction` takes the trader id from the bid itself and never fails.
- Client code is left out: it is UI and HTTP calls.
- TraderController.BrowseAuctions: `LIKE` matching is modelled as case-sensitive substring search, and `%` or `_` in a query text are taken literally. The database collation may compare case-insensitively and treat those characters as wildcards.
- TraderController.BrowseAuctions: the price bounds are integers that were sent. A non-numeric bound (`Number` giving NaN) is not modelled.
- Market.MaxBid: ties are not modelled as the database orders them. Among equal highest amounts the model takes the earliest, while the SQL order leaves it open. In every reachable store the amounts of one auction are distinct, so this does not matter there.
- StatsController.SortByDateDesc: the order among equal update times is whatever the insertion sort produces, where the database leaves it open.
- StatsController.GetMarketStats: the summary is computed over the completed auctions in id order rather than the date order. Count, volume and maximum do not depend on the order.
- Schemas.ValidRegister: e-mail syntax and Joi's lower-casing of the e-mail are not modelled; only non-blankness is. Fields are stored as sent, not as the schema converted them.
- Schemas.ValidLogin: the `.email()` syntax rule of the login schema is not modelled; only presence and non-emptiness are.
- Schemas.ValidAuction: Joi's `min` and `max` string lengths count UTF-16 code units, while the model counts code points (`string` is a sequence of characters). Texts outside the Basic Multilingual Plane are measured shorter than Joi measures them. The same holds for ValidRegister's length bounds.
- AuthController.Register: the "user exists" check compares e-mails as exact text. The database's case-insensitive collation and the registration schema's lower-casing of the e-mail (server/validators/schemas.js:6) would also treat `A@x.com` and `a@x.com` as the same user; the model does not, so RegisterKeepsEmailsUnique is uniqueness of exact texts.
- Ids are sequence positions. This is a modelling assumption. The repository's model files (server/models/Auction.js:5-8, server/models/Bid.js:4-5) are Mongoose schemas with ObjectId references, while the controllers and server/models/index.js:8 make Sequelize calls; the bid schema's 24-hex auction key (server/validators/schemas.js:41) is an ObjectId. The model does not decide between the two: it numbers records in creation order.
- Schemas.ValidAuction: the image URI syntax and fractional numbers are not modelled. Amounts, prices and quantities are integers.
- Schemas.ValidBid: the schema is stated as a predicate, but no route in these files applies it. The bid route runs without validation.
- TraderController.PlaceBid: the amount is an integer that was sent. The handler reads it from the body unvalidated (server/controllers/traderController.js:75). A missing or non-numeric amount makes both comparisons of the too-low check false in JavaScript (undefined and NaN compare false), so such a bid passes the check. That case, and fractional amounts, are not modelled.
- AuctionService.ExpiredIds: the sweep's query has no `ORDER BY`, so the database chooses the order in which expired auctions are closed. The model closes them in ascending id order. This fixes the positions of the new transactions, which are the payment ids that UpdatePaymentStatus looks up. Counts, statuses and the set of settlements do not depend on the order.
- AdminController.GetPendingUsers: the query has no `ORDER BY`. The model lists the users in ascending id order; only the set of users, each once, is promised.
- AdminController.GetAllAuctions: the status filter is compared as exact text. The database's case-insensitive collation, which would also match `Active` for `active`, is not modelled.
- AuthController.Login: e-mail lookup is exact text equality. A case-insensitive database collation is not modelled.
- StatsController.FarmerName: the "Unknown" fallback applies only to a farmer id beyond the user list. The model deletes no users, so a farmer removed by `rejectUser` is not represented.

Where this code and the design description of the system disagree, the model follows the code:

- New auctions start `active`, not `pending`.
- Closing with a winner sets `completed`, not `closed`.
- Closing is not idempotent: terminating a closed auction is refused, and `closeAuction` itself records a second transaction when called again.
- No Payment record is created beside the transaction.
- There is no minimum bid increment.
- The bid route has no role check (see Findings).
- The payment and statistics routers are defined, but `server/index.js` mounts only the auth, farmer, trader and admin routers. They are modelled as written.

## Findings

| source | as written | input that shows it | evidently intended | confidence | as-written member | corrected member |
|---|---|---|---|---|---|---|
| server/controllers/traderController.js:73-103 | The bid handler never checks the caller's role, and the trader router applies only authentication (routes/traderRoutes.js:7-11). A farmer or admin can therefore bid and win. Payment initiation then refuses the winner as not a trader and every trader as not the winner, so the sale cannot be paid through the route. | Farmer caller `Caller(5, Farmer)` bids 1010 on an active auction with base price 1000 before its end time. The sweep runs after the end time. | Only traders may bid. `TraderController.PlaceBidAsTrader` refuses other roles, and `EdgeCases.TraderWinnerCanPay` proves the winner can then always initiate payment. | medium; not executed | EdgeCases.NonTraderWinnerBlocksPayment | TraderController.PlaceBidAsTrader |

=== FILE: admin_controller.dfy ===
/** Administrator operations (server/controllers/adminController.js). The
    admin-only route guard runs before these handlers and is not modelled. */
module AdminController {
  import opened Outcomes
  import opened Market
  import AuctionService

  /** `getPendingUsers`: the non-admin users still waiting for approval. */
  function GetPendingUsers(s: Store): (r: seq<nat>)
    ensures forall i :: i in r <==> 0 <= i < |s.users| && !s.users[i].isApproved && s.users[i].role != Admin
    ensures forall k, l | 0 <= k < l < |r| :: r[k] < r[l]
  {
    Select(s.users, (u: User) => !u.isApproved && u.role != Admin)
  }

  /** `approveUser`: sets the approval flag of that one user. */
  function ApproveUser(s: Store, id: nat): (r: Result<Store>)
    ensures id >= |s.users| ==> r == Err(NotFound)
    ensures id < |s.users| ==> r.Ok?
    ensures r.Ok? ==>
      && |r.value.users| == |s.users|
      && r.value.users[id].isApproved
      && r.value.users[id] == s.users[id].(isApproved := true)
      && (forall j | 0 <= j < |s.users| && j != id :: r.value.users[j] == s.users[j])
      && r.value.auctions == s.auctions && r.value.bids == s.bids && r.value.transactions == s.transactions
  {
    if id >= |s.users| then Err(NotFound)
    else Ok(s.(users := s.users[id := s.users[id].(isApproved := true)]))
  }

  /** A status filter takes part only when it is truthy and not "all". */
  predicate FiltersStatus(status: Option<string>) {
    status.Some? && status.value != "" && status.value != "all"
  }

  /** `getAllAuctions`: every auction when the status filter is absent, empty
      or "all", otherwise exactly those whose stored status is that text;
      newest first. */
  function GetAllAuctions(s: Store, status: Option<string>): (r: seq<nat>)
    ensures !FiltersStatus(status) ==> forall i :: i in r <==> 0 <= i < |s.auctions|
    ensures FiltersStatus(status) ==>
      forall i :: i in r <==> 0 <= i < |s.auctions| && StatusName(s.auctions[i].status) == status.value
    ensures forall k, l | 0 <= k < l < |r| :: r[k] > r[l]
  {
    SelectNewestFirst(s.auctions, (a: Auction) => !FiltersStatus(status) || StatusName(a.status) == status.value)
  }

  /** `terminateAuction`: refused for an unknown auction or one that is not
      active; otherwise exactly the effect of closing it. */
  function TerminateAuction(s: Store, id: nat, now: int): (r: Result<Store>)
    ensures id >= |s.auctions| ==> r == Err(NotFound)
    ensures id < |s.auctions| && s.auctions[id].status != Active ==> r == Err(NotActive)
    ensures r.Ok? <==> id < |s.auctions| && s.auctions[id].status == Active
    ensures r.Ok? ==> r.value == AuctionService.CloseAuction(s, id, now)
    ensures r.Ok? ==> r.value.auctions[id].status != Active
  {
    if id >= |s.auctions| then Err(NotFound)
    else if s.auctions[id].status != Active then Err(NotActive)
    else Ok(AuctionService.CloseAuction(s, id, now))
  }

  /** Terminating twice: the second call is refused, so an auction is never
      closed twice through this route. */
  lemma SecondTerminateFails(s: Store, id: nat, now: int, later: int)
    requires TerminateAuction(s, id, now).Ok?
    ensures TerminateAuction(TerminateAuction(s, id, now).value, id, later) == Err(NotActive)
  {
  }

  datatype Dashboard = Dashboard(
    totalUsers: nat,
    farmers: nat,
    traders: nat,
    pendingApprovals: nat,
    totalAuctions: nat,
    activeAuctions: nat,
    closedAuctions: nat,
    completedAuctions: nat,
    totalBids: nat,
    totalTransactions: nat,
    totalTransactionValue: int)

  predicate IsFarmer(u: User) { u.role == Farmer }
  predicate IsTrader(u: User) { u.role == Trader }
  predicate IsNonAdmin(u: User) { u.role != Admin }
  predicate AwaitsApproval(u: User) { !u.isApproved && u.role != Admin }
  predicate IsPending(a: Auction) { a.status == Pending }
  predicate IsActive(a: Auction) { a.status == Active }
  predicate IsClosed(a: Auction) { a.status == Closed }
  predicate IsCompleted(a: Auction) { a.status == Completed }

  /** Every auction has exactly one of the four statuses. */
  lemma {:induction false} StatusCountsPartition(auctions: seq<Auction>)
    ensures Count(auctions, IsPending) + Count(auctions, IsActive)
          + Count(auctions, IsClosed) + Count(auctions, IsCompleted)
         == |auctions|
  {
    if |auctions| > 0 {
      StatusCountsPartition(auctions[..|auctions| - 1]);
    }
  }

  /** Every non-admin user is a farmer or a trader. */
  lemma {:induction false} RoleCountsPartition(users: seq<User>)
    ensures Count(users, IsNonAdmin) == Count(users, IsFarmer) + Count(users, IsTrader)
  {
    if |users| > 0 {
      RoleCountsPartition(users[..|users| - 1]);
    }
  }

  /** Users waiting for approval are among the non-admin users. */
  lemma {:induction false} PendingAmongNonAdmins(users: seq<User>)
    ensures Count(users, AwaitsApproval) <= Count(users, IsNonAdmin)
  {
    if |users| > 0 {
      PendingAmongNonAdmins(users[..|users| - 1]);
    }
  }

  /** `getDashboardStats`: the user, auction and bidding counters and the
      total value of all transactions. Each counter counts the rows its
      `count` query selects. */
  function DashboardStats(s: Store): (r: Dashboard)
    ensures r.totalUsers == r.farmers + r.traders
    ensures r.pendingApprovals <= r.totalUsers <= |s.users|
    ensures r.totalAuctions == |s.auctions|
    ensures r.activeAuctions + r.closedAuctions + r.completedAuctions <= r.totalAuctions
    ensures r.totalBids == |s.bids| && r.totalTransactions == |s.transactions|
    ensures r.totalTransactionValue == TotalValue(s.transactions)
    ensures r.totalUsers == Count(s.users, IsNonAdmin)
    ensures r.farmers == Count(s.users, IsFarmer) && r.traders == Count(s.users, IsTrader)
    ensures r.pendingApprovals == Count(s.users, AwaitsApproval)
    ensures r.activeAuctions == Count(s.auctions, IsActive)
    ensures r.closedAuctions == Count(s.auctions, IsClosed)
    ensures r.completedAuctions == Count(s.auctions, IsCompleted)
  {
    StatusCountsPartition(s.auctions);
    RoleCountsPartition(s.users);
    PendingAmongNonAdmins(s.users);
    Dashboard(
      Count(s.users, IsNonAdmin),
      Count(s.users, IsFarmer),
      Count(s.users, IsTrader),
      Count(s.users, AwaitsApproval),
      |s.auctions|,
      Count(s.auctions, IsActive),
      Count(s.auctions, IsClosed),
      Count(s.auctions, IsCompleted),
      |s.bids|,
      |s.transactions|,
      TotalValue(s.transactions))
  }

  /** The farmer, trader and pending counters are the numbers of such users
      on record. */
  lemma DashboardCountsRoles(s: Store)
    ensures DashboardStats(s).farmers == |Accepted(s.users, IsFarmer)|
    ensures DashboardStats(s).traders == |Accepted(s.users, IsTrader)|
    ensures DashboardStats(s).pendingApprovals == |Accepted(s.users, AwaitsApproval)|
  {
    CountIsSize(s.users, IsFarmer);
    CountIsSize(s.users, IsTrader);
    CountIsSize(s.users, AwaitsApproval);
  }

  /** The per-status counters are the numbers of auctions with that status. */
  lemma DashboardCountsStatuses(s: Store)
    ensures DashboardStats(s).activeAuctions == |Accepted(s.auctions, IsActive)|
    ensures DashboardStats(s).closedAuctions == |Accepted(s.auctions, IsClosed)|
    ensures DashboardStats(s).completedAuctions == |Accepted(s.auctions, IsCompleted)|
  {
    CountIsSize(s.auctions, IsActive);
    CountIsSize(s.auctions, IsClosed);
    CountIsSize(s.auctions, IsCompleted);
  }

  /** The transaction value grows by exactly the amount of each appended
      transaction. */
  lemma TotalValueAppend(ts: seq<Transaction>, t: Transaction)
    ensures TotalValue(ts + [t]) == TotalValue(ts) + t.finalAmount
  {
    assert (ts + [t])[..|ts|] == ts;
  }
}

=== FILE: auction_service.dfy ===
/** Closing an auction and the periodic expiry sweep
    (server/services/auctionService.js). */
module AuctionService {
  import opened Outcomes
  import opened Market

  /** The auction as closing leaves it: `completed` when it has a winner,
      `closed` when it has none. Saving stamps `updatedAt` only when the
      status actually changes: a save with no changed field writes nothing. */
  function CloseOf(a: Auction, won: bool, now: int): (r: Auction)
    ensures r.status == (if won then Completed else Closed)
    ensures r.updatedAt == (if a.status == r.status then a.updatedAt else now)
    ensures r == a.(status := r.status, updatedAt := r.updatedAt)
  {
    var status := if won then Completed else Closed;
    if a.status == status then a else a.(status := status, updatedAt := now)
  }

  /** The pending transaction closing records for winning bid `w` of auction `id`. */
  function Settlement(a: Auction, id: nat, w: Bid, now: int): Transaction {
    Transaction(id, a.farmerId, w.traderId, w.amount, PendingPayment, None, None, now)
  }

  /** `closeAuction`: an unknown id changes nothing; otherwise the auction
      becomes `completed` when it has bids and `closed` when it has none, and
      the only transaction it records is the winner's settlement. The current
      status is only consulted by the save, which leaves `updatedAt` alone
      when the status does not change. */
  function CloseAuction(s: Store, id: nat, now: int): (s': Store)
    ensures id >= |s.auctions| ==> s' == s
    ensures s'.bids == s.bids && s'.users == s.users && |s'.auctions| == |s.auctions|
    ensures forall j | 0 <= j < |s.auctions| && j != id :: s'.auctions[j] == s.auctions[j]
    ensures id < |s.auctions| ==>
      && s'.auctions[id] == CloseOf(s.auctions[id], HasBids(s.bids, id), now)
      && s'.auctions[id].status == (if HasBids(s.bids, id) then Completed else Closed)
    ensures id < |s.auctions| && s.auctions[id].status == Active ==>
      s'.auctions[id] == s.auctions[id].(status := if HasBids(s.bids, id) then Completed else Closed, updatedAt := now)
    ensures id < |s.auctions| ==> s'.transactions == s.transactions + SettlementOf(s, id, now)
  {
    if id >= |s.auctions| then s
    else
      var a := s.auctions[id];
      match WinningBid(s.bids, id)
      case None => s.(auctions := s.auctions[id := CloseOf(a, false, now)])
      case Some(w) =>
        s.(auctions := s.auctions[id := CloseOf(a, true, now)],
           transactions := s.transactions + [Settlement(a, id, w, now)])
  }

  /** `t` is the settlement closing records, at time `now`, for an auction that has a winning bid. */
  predicate SettlesWinner(s: Store, t: Transaction, now: int)
  {
    && t.auctionId < |s.auctions|
    && WinningBid(s.bids, t.auctionId).Some?
    && t == Settlement(s.auctions[t.auctionId], t.auctionId, WinningBid(s.bids, t.auctionId).value, now)
  }

  /** What closing auction `id` records: its settlement when it has bids, nothing otherwise. */
  function SettlementOf(s: Store, id: nat, now: int): (r: seq<Transaction>)
    requires id < |s.auctions|
    ensures |r| <= 1
    ensures |r| == 1 <==> HasBids(s.bids, id)
    ensures |r| == 1 ==> r[0].auctionId == id && SettlesWinner(s, r[0], now)
  {
    match WinningBid(s.bids, id)
    case None => []
    case Some(w) => [Settlement(s.auctions[id], id, w, now)]
  }

  /** Closing an auction that has bids appends exactly one pending transaction,
      for the farmer of the auction, at the amount of a maximal bid of that
      auction and to the trader who placed it; closing one without bids
      records nothing. */
  lemma CloseAuctionSettlesWinner(s: Store, id: nat, now: int)
    requires id < |s.auctions|
    ensures !HasBids(s.bids, id) ==> CloseAuction(s, id, now).transactions == s.transactions
    ensures HasBids(s.bids, id) ==>
      var ts := CloseAuction(s, id, now).transactions;
      && |ts| == |s.transactions| + 1
      && ts[..|s.transactions|] == s.transactions
      && ts[|s.transactions|].auctionId == id
      && ts[|s.transactions|].farmerId == s.auctions[id].farmerId
      && ts[|s.transactions|].paymentStatus == PendingPayment
      && ts[|s.transactions|].transactionDate == now
      && (exists b | b in s.bids && b.auctionId == id ::
            b.amount == ts[|s.transactions|].finalAmount && b.traderId == ts[|s.transactions|].traderId)
      && (forall b | b in s.bids && b.auctionId == id :: b.amount <= ts[|s.transactions|].finalAmount)
  {
    if HasBids(s.bids, id) {
      var w := WinningBid(s.bids, id).value;
      var ts := CloseAuction(s, id, now).transactions;
      assert ts[|s.transactions|] == Settlement(s.auctions[id], id, w, now);
    }
  }

  /** The selection condition of the sweep: `status = 'active' AND endTime <= now`. */
  predicate Expired(a: Auction, now: int) {
    a.status == Active && a.endTime <= now
  }

  /** The ids the sweep selects. Its query has no `order`, so the database
      chooses the order; the model takes ascending id order. */
  function ExpiredIds(auctions: seq<Auction>, now: int): (r: seq<nat>)
    ensures forall i :: i in r <==> 0 <= i < |auctions| && auctions[i].status == Active && auctions[i].endTime <= now
    ensures forall i, j | 0 <= i < j < |r| :: r[i] < r[j]
    ensures forall k | 0 <= k < |r| :: r[k] < |auctions|
  {
    if |auctions| == 0 then []
    else
      var n := |auctions| - 1;
      ExpiredIds(auctions[..n], now) + (if Expired(auctions[n], now) then [n] else [])
  }

  /** Ids listed in strictly ascending order (so without repetition). */
  predicate Ascending(ids: seq<nat>) {
    forall i, j | 0 <= i < j < |ids| :: ids[i] < ids[j]
  }

  /** Closes the listed auctions one after the other, first to last, as the
      sweep's loop does. */
  function CloseEach(s: Store, ids: seq<nat>, now: int): (r: Store)
    ensures r.bids == s.bids && r.users == s.users && |r.auctions| == |s.auctions|
    ensures forall j | 0 <= j < |s.auctions| :: r.auctions[j].farmerId == s.auctions[j].farmerId
  {
    if |ids| == 0 then s else CloseAuction(CloseEach(s, ids[..|ids| - 1], now), ids[|ids| - 1], now)
  }

  /** The transactions closing the listed auctions records, in closing order. */
  function Settlements(s: Store, ids: seq<nat>, now: int): seq<Transaction>
    requires forall k | 0 <= k < |ids| :: ids[k] < |s.auctions|
  {
    if |ids| == 0 then []
    else Settlements(s, ids[..|ids| - 1], now) + SettlementOf(s, ids[|ids| - 1], now)
  }

  /** Settlements read only the bids and each auction's farmer. */
  lemma {:induction false} SettlementsFrame(s: Store, t: Store, ids: seq<nat>, now: int)
    requires forall k | 0 <= k < |ids| :: ids[k] < |s.auctions|
    requires t.bids == s.bids && |t.auctions| == |s.auctions|
    requires forall j | 0 <= j < |s.auctions| :: t.auctions[j].farmerId == s.auctions[j].farmerId
    ensures Settlements(t, ids, now) == Settlements(s, ids, now)
  {
    if |ids| > 0 {
      SettlementsFrame(s, t, ids[..|ids| - 1], now);
      assert SettlementOf(t, ids[|ids| - 1], now) == SettlementOf(s, ids[|ids| - 1], now);
    }
  }

  /** Closing a list of auctions leaves every unlisted auction as it was. */
  lemma {:induction false} CloseEachFrame(s: Store, ids: seq<nat>, now: int)
    ensures forall j | 0 <= j < |s.auctions| && j !in ids :: CloseEach(s, ids, now).auctions[j] == s.auctions[j]
  {
    if |ids| > 0 {
      var prefix := ids[..|ids| - 1];
      CloseEachFrame(s, prefix, now);
      assert ids == prefix + [ids[|ids| - 1]];
    }
  }

  /** Closing a list of ascending auction ids closes each of them as `CloseOf` says. */
  lemma {:induction false} CloseEachCloses(s: Store, ids: seq<nat>, now: int)
    requires forall k | 0 <= k < |ids| :: ids[k] < |s.auctions|
    requires Ascending(ids)
    ensures forall k | 0 <= k < |ids| ::
      CloseEach(s, ids, now).auctions[ids[k]] == CloseOf(s.auctions[ids[k]], HasBids(s.bids, ids[k]), now)
  {
    if |ids| > 0 {
      var n := |ids| - 1;
      var prefix := ids[..n];
      CloseEachCloses(s, prefix, now);
      CloseEachFrame(s, prefix, now);
      var s1 := CloseEach(s, prefix, now);
      var s2 := CloseEach(s, ids, now);
      assert s2 == CloseAuction(s1, ids[n], now);
      forall k | 0 <= k < |ids|
        ensures s2.auctions[ids[k]] == CloseOf(s.auctions[ids[k]], HasBids(s.bids, ids[k]), now)
      {
        if k == n {
          assert ids[n] !in prefix;
          assert s1.auctions[ids[n]] == s.auctions[ids[n]];
        } else {
          assert ids[k] == prefix[k] && ids[k] < ids[n];
        }
      }
    }
  }

  /** Closing a list of auctions appends exactly their settlements. */
  lemma {:induction false} CloseEachRecords(s: Store, ids: seq<nat>, now: int)
    requires forall k | 0 <= k < |ids| :: ids[k] < |s.auctions|
    ensures CloseEach(s, ids, now).transactions == s.transactions + Settlements(s, ids, now)
  {
    if |ids| > 0 {
      var n := |ids| - 1;
      var prefix := ids[..n];
      var s1 := CloseEach(s, prefix, now);
      var earlier := Settlements(s, prefix, now);
      var head := SettlementOf(s, ids[n], now);
      assert s1.transactions == s.transactions + earlier by {
        CloseEachRecords(s, prefix, now);
      }
      assert CloseEach(s, ids, now).transactions == s1.transactions + head by {
        assert SettlementOf(s1, ids[n], now) == head;
      }
      assert Settlements(s, ids, now) == earlier + head;
      assert (s.transactions + earlier) + head == s.transactions + (earlier + head);
    }
  }

  /** Every settlement belongs to a listed auction and carries its winning bid. */
  lemma {:induction false} SettlementsAreWinners(s: Store, ids: seq<nat>, now: int)
    requires forall k | 0 <= k < |ids| :: ids[k] < |s.auctions|
    ensures forall k | 0 <= k < |Settlements(s, ids, now)| ::
      SettlesWinner(s, Settlements(s, ids, now)[k], now) && Settlements(s, ids, now)[k].auctionId in ids
  {
    if |ids| > 0 {
      var n := |ids| - 1;
      var prefix := ids[..n];
      SettlementsAreWinners(s, prefix, now);
      assert ids == prefix + [ids[n]];
    }
  }

  /** The auctions a list of transactions settles. */
  function SettledIds(ts: seq<Transaction>): set<nat> {
    set k | 0 <= k < |ts| :: ts[k].auctionId
  }

  lemma SettledIdsAppend(a: seq<Transaction>, b: seq<Transaction>)
    ensures SettledIds(a + b) == SettledIds(a) + SettledIds(b)
  {
    forall id | id in SettledIds(a + b) ensures id in SettledIds(a) + SettledIds(b) {
      var k :| 0 <= k < |a + b| && (a + b)[k].auctionId == id;
      if k >= |a| { assert b[k - |a|] == (a + b)[k]; }
    }
    forall id | id in SettledIds(a) ensures id in SettledIds(a + b) {
      var k :| 0 <= k < |a| && a[k].auctionId == id;
      assert (a + b)[k] == a[k];
    }
    forall id | id in SettledIds(b) ensures id in SettledIds(a + b) {
      var k :| 0 <= k < |b| && b[k].auctionId == id;
      assert (a + b)[|a| + k] == b[k];
    }
  }

  /** The listed auctions that have bids. */
  function WithBids(s: Store, ids: seq<nat>): set<nat> {
    set id | id in ids && HasBids(s.bids, id)
  }

  lemma WithBidsLast(s: Store, ids: seq<nat>)
    requires |ids| > 0
    ensures var x := ids[|ids| - 1];
      WithBids(s, ids) == WithBids(s, ids[..|ids| - 1]) + (if HasBids(s.bids, x) then {x} else {})
  {
    assert ids == ids[..|ids| - 1] + [ids[|ids| - 1]];
  }

  /** The auctions settled are exactly the listed auctions that have bids. */
  lemma {:induction false} SettlementsCoverWinners(s: Store, ids: seq<nat>, now: int)
    requires forall k | 0 <= k < |ids| :: ids[k] < |s.auctions|
    ensures SettledIds(Settlements(s, ids, now)) == WithBids(s, ids)
  {
    if |ids| > 0 {
      var n := |ids| - 1;
      var prefix := ids[..n];
      var earlier := Settlements(s, prefix, now);
      var head := SettlementOf(s, ids[n], now);
      var x := ids[n];
      assert SettledIds(earlier) == WithBids(s, prefix) by {
        SettlementsCoverWinners(s, prefix, now);
      }
      assert SettledIds(Settlements(s, ids, now)) == SettledIds(earlier) + SettledIds(head) by {
        assert Settlements(s, ids, now) == earlier + head;
        SettledIdsAppend(earlier, head);
      }
      assert SettledIds(head) == if HasBids(s.bids, x) then {x} else {} by {
        SettledIdsOfSettlementOf(s, x, now);
      }
      assert WithBids(s, ids) == WithBids(s, prefix) + (if HasBids(s.bids, x) then {x} else {}) by {
        WithBidsLast(s, ids);
      }
    }
  }

  lemma SettledIdsOfSettlementOf(s: Store, id: nat, now: int)
    requires id < |s.auctions|
    ensures SettledIds(SettlementOf(s, id, now)) == if HasBids(s.bids, id) then {id} else {}
  {
    var head := SettlementOf(s, id, now);
    if |head| == 1 { assert head[0].auctionId == id; }
  }

  /** Settlements of ascending ids come in ascending auction order, so no
      auction is settled twice. */
  lemma {:induction false} SettlementsAscending(s: Store, ids: seq<nat>, now: int)
    requires forall k | 0 <= k < |ids| :: ids[k] < |s.auctions|
    requires Ascending(ids)
    ensures forall k, l | 0 <= k < l < |Settlements(s, ids, now)| ::
      Settlements(s, ids, now)[k].auctionId < Settlements(s, ids, now)[l].auctionId
  {
    if |ids| > 0 {
      var n := |ids| - 1;
      var prefix := ids[..n];
      SettlementsAscending(s, prefix, now);
      SettlementsAreWinners(s, prefix, now);
      var front := Settlements(s, prefix, now);
      assert forall k | 0 <= k < |front| :: front[k].auctionId < ids[n];
    }
  }

  /** Among the settlements of a list, the first one for a listed auction
      with bids is the settlement of its winning bid. */
  lemma SettlementsFind(s: Store, ids: seq<nat>, now: int, id: nat)
    requires forall k | 0 <= k < |ids| :: ids[k] < |s.auctions|
    requires id in ids && HasBids(s.bids, id)
    ensures FindTransaction(Settlements(s, ids, now), id).Some?
    ensures id < |s.auctions|
    ensures Settlements(s, ids, now)[FindTransaction(Settlements(s, ids, now), id).value]
         == Settlement(s.auctions[id], id, WinningBid(s.bids, id).value, now)
  {
    var ts := Settlements(s, ids, now);
    SettlementsCoverWinners(s, ids, now);
    SettlementsAreWinners(s, ids, now);
    assert id in WithBids(s, ids);
    var j :| 0 <= j < |ts| && ts[j].auctionId == id;
  }

  function Elems(ids: seq<nat>): set<nat> {
    set i | i in ids
  }

  lemma {:induction false} AscendingSetSize(ids: seq<nat>)
    requires Ascending(ids)
    ensures |Elems(ids)| == |ids|
  {
    if |ids| > 0 {
      var n := |ids| - 1;
      var prefix := ids[..n];
      assert Ascending(prefix);
      AscendingSetSize(prefix);
      assert ids == prefix + [ids[n]];
      assert Elems(ids) == Elems(prefix) + {ids[n]};
      assert ids[n] !in Elems(prefix);
    }
  }

  /** The sweep selects exactly the expired auctions, so its count is their number. */
  lemma ExpiredCount(auctions: seq<Auction>, now: int)
    ensures |ExpiredIds(auctions, now)| == |set i | 0 <= i < |auctions| && Expired(auctions[i], now)|
  {
    var ids := ExpiredIds(auctions, now);
    AscendingSetSize(ids);
    assert Elems(ids) == (set i | 0 <= i < |auctions| && Expired(auctions[i], now));
  }

  lemma SweepClosesSelected(s: Store, ids: seq<nat>, now: int)
    requires ids == ExpiredIds(s.auctions, now)
    requires forall k | 0 <= k < |ids| ::
      CloseEach(s, ids, now).auctions[ids[k]] == CloseOf(s.auctions[ids[k]], HasBids(s.bids, ids[k]), now)
    ensures forall j | 0 <= j < |s.auctions| && Expired(s.auctions[j], now) ::
      CloseEach(s, ids, now).auctions[j] == CloseOf(s.auctions[j], HasBids(s.bids, j), now)
  {
    forall j | 0 <= j < |s.auctions| && Expired(s.auctions[j], now)
      ensures CloseEach(s, ids, now).auctions[j] == CloseOf(s.auctions[j], HasBids(s.bids, j), now)
    {
      assert j in ids;
      var k :| 0 <= k < |ids| && ids[k] == j;
    }
  }

  /** `checkAndCloseExpiredAuctions`: closes every auction that is `active`
      with `endTime <= now`, and only those, and returns how many it selected. */
  function Sweep(s: Store, now: int): (r: (Store, nat))
    ensures r.1 == |set i | 0 <= i < |s.auctions| && Expired(s.auctions[i], now)|
    ensures r.1 == 0 ==> r.0 == s
    ensures r.0.bids == s.bids && r.0.users == s.users && |r.0.auctions| == |s.auctions|
    ensures forall j | 0 <= j < |s.auctions| && !Expired(s.auctions[j], now) :: r.0.auctions[j] == s.auctions[j]
    ensures forall j | 0 <= j < |s.auctions| && Expired(s.auctions[j], now) ::
      r.0.auctions[j] == s.auctions[j].(status := if HasBids(s.bids, j) then Completed else Closed, updatedAt := now)
    ensures forall j | 0 <= j < |r.0.auctions| :: !Expired(r.0.auctions[j], now)
    ensures r.0.transactions == s.transactions + Settlements(s, ExpiredIds(s.auctions, now), now)
  {
    var ids := ExpiredIds(s.auctions, now);
    CloseEachFrame(s, ids, now);
    CloseEachCloses(s, ids, now);
    CloseEachRecords(s, ids, now);
    ExpiredCount(s.auctions, now);
    SweepClosesSelected(s, ids, now);
    (CloseEach(s, ids, now), |ids|)
  }

  /** The sweep settles each expired auction that has bids exactly once, at its
      winning bid, and records nothing for any other auction. */
  lemma SweepSettlesEachWinnerOnce(s: Store, now: int)
    ensures |Sweep(s, now).0.transactions| >= |s.transactions|
    ensures Sweep(s, now).0.transactions[..|s.transactions|] == s.transactions
    ensures forall k | |s.transactions| <= k < |Sweep(s, now).0.transactions| ::
      && SettlesWinner(s, Sweep(s, now).0.transactions[k], now)
      && Expired(s.auctions[Sweep(s, now).0.transactions[k].auctionId], now)
    ensures SettledIds(Sweep(s, now).0.transactions[|s.transactions|..])
         == set id | 0 <= id < |s.auctions| && Expired(s.auctions[id], now) && HasBids(s.bids, id)
    ensures forall k, l | |s.transactions| <= k < l < |Sweep(s, now).0.transactions| ::
      Sweep(s, now).0.transactions[k].auctionId != Sweep(s, now).0.transactions[l].auctionId
  {
    var ts := Settlements(s, ExpiredIds(s.auctions, now), now);
    ExpiredSettlements(s, now);
    assert Sweep(s, now).0.transactions == s.transactions + ts;
    AppendParts(s.transactions, ts);
  }

  /** What the sweep appends: winners' settlements of expired auctions, one
      for each expired auction with bids, no auction twice. */
  lemma ExpiredSettlements(s: Store, now: int)
    ensures var ts := Settlements(s, ExpiredIds(s.auctions, now), now);
      && (forall k | 0 <= k < |ts| :: SettlesWinner(s, ts[k], now) && Expired(s.auctions[ts[k].auctionId], now))
      && SettledIds(ts) == (set id | 0 <= id < |s.auctions| && Expired(s.auctions[id], now) && HasBids(s.bids, id))
      && (forall k, l | 0 <= k < l < |ts| :: ts[k].auctionId != ts[l].auctionId)
  {
    var ids := ExpiredIds(s.auctions, now);
    SettlementsAreWinners(s, ids, now);
    SettlementsCoverWinners(s, ids, now);
    SettlementsAscending(s, ids, now);
    assert WithBids(s, ids)
        == (set id | 0 <= id < |s.auctions| && Expired(s.auctions[id], now) && HasBids(s.bids, id));
  }

  /** The two halves of a concatenation, and where the second half's
      elements sit in it. */
  lemma AppendParts<T>(a: seq<T>, b: seq<T>)
    ensures (a + b)[..|a|] == a && (a + b)[|a|..] == b
    ensures forall k | |a| <= k < |a + b| :: (a + b)[k] == b[k - |a|]
  {
  }
}

=== FILE: auth_controller.dfy ===
/** Registration and login (server/controllers/authController.js).
    Password hashing and token signing are outside the model: the stored
    `password` stands for the hash, and whether an attempt matches it is the
    parameter `matches`. */
module AuthController {
  import opened Outcomes
  import opened Market
  import opened Schemas
  import AdminController

  /** A user with that e-mail. The `findOne` by e-mail has no `order`, so the
      database picks the row; the model takes the first. Registration keeps
      e-mails unique (`RegisterKeepsEmailsUnique`), so there is at most one. */
  function FindUserByEmail(users: seq<User>, email: string): (r: Option<nat>)
    ensures r.Some? ==> r.value < |users| && users[r.value].email == email
    ensures r.Some? ==> forall k | 0 <= k < r.value :: users[k].email != email
    ensures r.None? <==> forall k | 0 <= k < |users| :: users[k].email != email
  {
    if |users| == 0 then None
    else if users[0].email == email then Some(0)
    else
      match FindUserByEmail(users[1..], email)
      case None => None
      case Some(k) => Some(k + 1)
  }

  /** No two users share an e-mail. */
  predicate UniqueEmails(users: seq<User>) {
    forall i, j | 0 <= i < j < |users| :: users[i].email != users[j].email
  }

  /** `register`: an e-mail already on record is refused; otherwise the new
      user is appended unapproved, keeping the farm location only for a
      farmer and the licence number only for a trader. */
  function Register(s: Store, input: RegisterInput): (r: Result<Store>)
    ensures r.Err? <==> exists k | 0 <= k < |s.users| :: s.users[k].email == input.email
    ensures r.Err? ==> r.error == UserExists
    ensures r.Ok? ==>
      && |r.value.users| == |s.users| + 1
      && r.value.users[..|s.users|] == s.users
      && r.value.auctions == s.auctions && r.value.bids == s.bids && r.value.transactions == s.transactions
    ensures r.Ok? ==> var u := r.value.users[|s.users|];
      && !u.isApproved
      && u.name == input.name && u.email == input.email && u.password == input.password
      && u.role == input.role && u.phone == input.phone
      && u.farmLocation == (if input.role == Farmer then input.farmLocation else None)
      && u.apmcLicense == (if input.role == Trader then input.apmcLicense else None)
  {
    match FindUserByEmail(s.users, input.email)
    case Some(_) => Err(UserExists)
    case None =>
      var u := User(input.name, input.email, input.password, input.role, input.phone,
                    if input.role == Farmer then input.farmLocation else None,
                    if input.role == Trader then input.apmcLicense else None,
                    false);
      Ok(s.(users := s.users + [u]))
  }

  /** Registration keeps e-mails unique. */
  lemma RegisterKeepsEmailsUnique(s: Store, input: RegisterInput)
    requires UniqueEmails(s.users)
    requires Register(s, input).Ok?
    ensures UniqueEmails(Register(s, input).value.users)
  {
  }

  /** `POST /register`: the registration schema runs before the handler. */
  function RegisterRoute(s: Store, input: RegisterInput): (r: Result<Store>)
    ensures !ValidRegister(input) ==> r == Err(InvalidInput)
    ensures ValidRegister(input) ==> r == Register(s, input)
    ensures r.Ok? ==> r.value.users[|s.users|].role != Admin
  {
    if ValidRegister(input) then Register(s, input) else Err(InvalidInput)
  }

  /** What a successful login reports about the user; the signed token is
      not modelled. */
  datatype LoginInfo = LoginInfo(id: nat, name: string, email: string, role: Role)

  /** `login`: an unknown e-mail and a wrong password both fail as invalid
      credentials; a matching user who is neither approved nor an admin is
      refused as pending approval; otherwise the user's id, name, e-mail and
      role. */
  function Login(s: Store, email: string, password: string, matches: (string, string) -> bool): (r: Result<LoginInfo>)
    ensures FindUserByEmail(s.users, email).None? ==> r == Err(InvalidCredentials)
    ensures FindUserByEmail(s.users, email).Some? ==>
      var u := s.users[FindUserByEmail(s.users, email).value];
      && (!matches(password, u.password) ==> r == Err(InvalidCredentials))
      && (matches(password, u.password) && !u.isApproved && u.role != Admin ==> r == Err(PendingApproval))
      && (matches(password, u.password) && (u.isApproved || u.role == Admin) ==> r.Ok?)
    ensures r.Ok? ==>
      && r.value.id < |s.users|
      && FindUserByEmail(s.users, email) == Some(r.value.id)
      && var u := s.users[r.value.id];
      && matches(password, u.password)
      && (u.isApproved || u.role == Admin)
      && r.value == LoginInfo(r.value.id, u.name, u.email, u.role)
  {
    match FindUserByEmail(s.users, email)
    case None => Err(InvalidCredentials)
    case Some(id) =>
      var u := s.users[id];
      if !matches(password, u.password) then Err(InvalidCredentials)
      else if !u.isApproved && u.role != Admin then Err(PendingApproval)
      else Ok(LoginInfo(id, u.name, u.email, u.role))
  }

  /** `POST /login`: the login schema runs before the handler. */
  function LoginRoute(s: Store, email: string, password: string, matches: (string, string) -> bool): (r: Result<LoginInfo>)
    ensures !ValidLogin(email, password) ==> r == Err(InvalidInput)
    ensures ValidLogin(email, password) ==> r == Login(s, email, password, matches)
  {
    if ValidLogin(email, password) then Login(s, email, password, matches) else Err(InvalidInput)
  }

  /** Appending a user with a new e-mail makes it the one found by that e-mail. */
  lemma FindsAppendedUser(users: seq<User>, u: User)
    requires forall k | 0 <= k < |users| :: users[k].email != u.email
    ensures FindUserByEmail(users + [u], u.email) == Some(|users|)
  {
    var all := users + [u];
    assert all[|users|].email == u.email;
    assert forall k | 0 <= k < |users| :: all[k].email != u.email;
  }

  /** A user who has just registered cannot log in, even with the right
      password, until an admin approves the account. */
  lemma RegisteredUserAwaitsApproval(s: Store, input: RegisterInput, matches: (string, string) -> bool)
    requires RegisterRoute(s, input).Ok?
    requires matches(input.password, input.password)
    ensures Login(RegisterRoute(s, input).value, input.email, input.password, matches) == Err(PendingApproval)
  {
    var t := RegisterRoute(s, input).value;
    FindsAppendedUser(s.users, t.users[|s.users|]);
    assert t.users == s.users + [t.users[|s.users|]];
  }

  /** Once approved, the new user logs in with the registered password and
      is reported with the registered name, e-mail and role. */
  lemma ApprovedUserLogsIn(s: Store, input: RegisterInput, matches: (string, string) -> bool)
    requires Register(s, input).Ok?
    requires matches(input.password, input.password)
    ensures var t := Register(s, input).value;
      AdminController.ApproveUser(t, |s.users|).Ok?
      && Login(AdminController.ApproveUser(t, |s.users|).value, input.email, input.password, matches)
         == Ok(LoginInfo(|s.users|, input.name, input.email, input.role))
  {
    var t := Register(s, input).value;
    var a := AdminController.ApproveUser(t, |s.users|).value;
    var u := a.users[|s.users|];
    assert a.users == s.users + [u];
    FindsAppendedUser(s.users, u);
  }
}

=== FILE: edge_cases.dfy ===
/** Consequences of the close, bid and sweep rules at their boundaries, and
    one complete auction from listing to settlement. */
module EdgeCases {
  import opened Outcomes
  import opened Market
  import opened Schemas
  import AuctionService
  import TraderController
  import FarmerController
  import PaymentRoutes
  import Invariants

  /** `closeAuction` does not look at the status, so closing an auction with
      bids a second time records a second transaction for it: only its
      callers' restriction to active auctions keeps settlements single. */
  lemma CloseTwiceDuplicates(s: Store, id: nat, now: int, later: int)
    requires id < |s.auctions| && HasBids(s.bids, id)
    ensures var u := AuctionService.CloseAuction(AuctionService.CloseAuction(s, id, now), id, later);
      && |u.transactions| == |s.transactions| + 2
      && u.transactions[|s.transactions|].auctionId == id
      && u.transactions[|s.transactions| + 1].auctionId == id
      && PaymentRoutes.TransactionsOf(u.transactions, id) == PaymentRoutes.TransactionsOf(s.transactions, id) + 2
  {
    var t := AuctionService.CloseAuction(s, id, now);
    var u := AuctionService.CloseAuction(t, id, later);
    AuctionService.CloseAuctionSettlesWinner(s, id, now);
    AuctionService.CloseAuctionSettlesWinner(t, id, later);
    assert t.transactions == s.transactions + [t.transactions[|s.transactions|]];
    assert u.transactions == t.transactions + [u.transactions[|t.transactions|]];
    PaymentRoutes.TransactionsOfAppend(s.transactions, t.transactions[|s.transactions|], id);
    PaymentRoutes.TransactionsOfAppend(t.transactions, u.transactions[|t.transactions|], id);
  }

  /** An accepted bid keeps the invariant and is the auction's winning bid. */
  lemma AcceptedBidWins(s: Store, traderId: nat, id: nat, amount: int, at: int)
    requires Invariants.Inv(s)
    requires TraderController.PlaceBid(s, traderId, id, amount, at).Ok?
    ensures var t := TraderController.PlaceBid(s, traderId, id, amount, at).value;
      && Invariants.Inv(t)
      && id < |t.auctions| && t.auctions[id].status == Active && t.auctions[id].endTime == s.auctions[id].endTime
      && WinningBid(t.bids, id) == Some(Bid(id, traderId, amount, at))
  {
    var b := Bid(id, traderId, amount, at);
    var t := TraderController.PlaceBid(s, traderId, id, amount, at).value;
    Invariants.PlaceBidPreservesInv(s, traderId, id, amount, at);
    assert Invariants.LedgerOk(t.auctions, t.bids, id);
    BidsForAppend(s.bids, b, id);
    MaxOfIncreasingIsLast(BidsFor(t.bids, id));
  }

  /** A sweep completes an expired active auction that has bids and records,
      as the first transaction of that auction, the settlement of its
      winning bid. */
  lemma SweepSettlesExpired(t: Store, id: nat, closeAt: int)
    requires Invariants.Inv(t) && id < |t.auctions|
    requires AuctionService.Expired(t.auctions[id], closeAt) && HasBids(t.bids, id)
    ensures var u := AuctionService.Sweep(t, closeAt).0;
      && u.auctions[id].status == Completed
      && u.bids == t.bids
      && FindTransaction(u.transactions, id).Some?
      && u.transactions[FindTransaction(u.transactions, id).value]
         == AuctionService.Settlement(t.auctions[id], id, WinningBid(t.bids, id).value, closeAt)
  {
    var ids := AuctionService.ExpiredIds(t.auctions, closeAt);
    var settled := AuctionService.Settlements(t, ids, closeAt);
    assert AuctionService.Sweep(t, closeAt).0.transactions == t.transactions + settled;
    assert id in ids;
    AuctionService.SettlementsFind(t, ids, closeAt, id);
    Invariants.ActiveUnsettled(t.auctions, t.bids, t.transactions, id);
    FindTransactionAppend(t.transactions, settled, id);
  }

  /** When the last bid of an auction is followed by a sweep at or after its
      end time, the auction completes with one pending transaction at that
      bid, to that bidder, who is the auction's winning bidder. */
  lemma LastBidWinsAtSweep(s: Store, traderId: nat, id: nat, amount: int, at: int, closeAt: int)
    requires Invariants.Inv(s) && id < |s.auctions| && closeAt >= s.auctions[id].endTime
    requires TraderController.PlaceBid(s, traderId, id, amount, at).Ok?
    ensures var u := AuctionService.Sweep(TraderController.PlaceBid(s, traderId, id, amount, at).value, closeAt).0;
      && u.auctions[id].status == Completed
      && WinningBid(u.bids, id).Some? && WinningBid(u.bids, id).value.traderId == traderId
      && FindTransaction(u.transactions, id).Some?
      && u.transactions[FindTransaction(u.transactions, id).value].finalAmount == amount
      && u.transactions[FindTransaction(u.transactions, id).value].traderId == traderId
      && u.transactions[FindTransaction(u.transactions, id).value].paymentStatus == PendingPayment
  {
    var t := TraderController.PlaceBid(s, traderId, id, amount, at).value;
    AcceptedBidWins(s, traderId, id, amount, at);
    SweepSettlesExpired(t, id, closeAt);
  }

  /** A bid placed exactly at the end time is accepted, and the sweep run at
      that same instant closes the auction and settles it at that bid, to
      that trader. */
  lemma BidAtEndTimeSettles(s: Store, traderId: nat, id: nat, amount: int)
    requires Invariants.Inv(s) && id < |s.auctions|
    requires TraderController.PlaceBid(s, traderId, id, amount, s.auctions[id].endTime).Ok?
    ensures var t := TraderController.PlaceBid(s, traderId, id, amount, s.auctions[id].endTime).value;
      var u := AuctionService.Sweep(t, s.auctions[id].endTime).0;
      && u.auctions[id].status == Completed
      && FindTransaction(u.transactions, id).Some?
      && u.transactions[FindTransaction(u.transactions, id).value].finalAmount == amount
      && u.transactions[FindTransaction(u.transactions, id).value].traderId == traderId
  {
    LastBidWinsAtSweep(s, traderId, id, amount, s.auctions[id].endTime, s.auctions[id].endTime);
  }

  /** As written, the bid route does not check the caller's role, so a
      farmer's or admin's bid can win. Payment for that auction can then be
      initiated by nobody: the winner is refused as not a trader, and every
      other caller as not the winner. */
  lemma NonTraderWinnerBlocksPayment(s: Store, bidder: Caller, id: nat, amount: int, at: int, closeAt: int,
                                     other: Caller, paymentMethod: Option<string>, notes: Option<string>, later: int)
    requires Invariants.Inv(s) && id < |s.auctions| && closeAt >= s.auctions[id].endTime
    requires bidder.role != Trader && other.id != bidder.id
    requires TraderController.PlaceBid(s, bidder.id, id, amount, at).Ok?
    ensures var u := AuctionService.Sweep(TraderController.PlaceBid(s, bidder.id, id, amount, at).value, closeAt).0;
      && u.auctions[id].status == Completed
      && PaymentRoutes.CreatePayment(u, bidder, id, paymentMethod, notes, later) == Err(NotTrader)
      && PaymentRoutes.CreatePayment(u, other, id, paymentMethod, notes, later).Err?
  {
    LastBidWinsAtSweep(s, bidder.id, id, amount, at, closeAt);
  }

  /** With the role check, the winner of an auction closed by the sweep is a
      trader who can initiate its payment. */
  lemma TraderWinnerCanPay(s: Store, bidder: Caller, id: nat, amount: int, at: int, closeAt: int,
                           paymentMethod: Option<string>, notes: Option<string>, later: int)
    requires Invariants.Inv(s) && id < |s.auctions| && closeAt >= s.auctions[id].endTime
    requires TraderController.PlaceBidAsTrader(s, bidder, id, amount, at).Ok?
    ensures bidder.role == Trader
    ensures var u := AuctionService.Sweep(TraderController.PlaceBidAsTrader(s, bidder, id, amount, at).value, closeAt).0;
      PaymentRoutes.CreatePayment(u, bidder, id, paymentMethod, notes, later).Ok?
  {
    LastBidWinsAtSweep(s, bidder.id, id, amount, at, closeAt);
  }

  /** One auction from listing to settlement: base price 1000; a bid of 1010
      by the first trader is accepted, the second trader's 1005 is then too
      low, the first trader's 1020 is accepted; the sweep after the end time
      completes the auction with a single pending transaction of 1020 to the
      first trader. */
  lemma ScenarioSettlesHighestBid()
    ensures var listing := AuctionInput("Rashi", 500, "A", 1000, "Shivamogga", 100, None);
      var (s1, id) := FarmerController.CreateAuction(EmptyStore(), 7, listing, 0);
      var s2 := TraderController.PlaceBid(s1, 1, id, 1010, 10);
      && s2.Ok?
      && TraderController.PlaceBid(s2.value, 2, id, 1005, 20) == Err(BidTooLow)
      && var s3 := TraderController.PlaceBid(s2.value, 1, id, 1020, 30);
      && s3.Ok?
      && var (s4, count) := AuctionService.Sweep(s3.value, 100);
      && count == 1
      && s4.auctions[id].status == Completed
      && s4.transactions == [Transaction(id, 7, 1, 1020, PendingPayment, None, None, 100)]
  {
    ScenarioBidding();
    var listing := AuctionInput("Rashi", 500, "A", 1000, "Shivamogga", 100, None);
    var (s1, id) := FarmerController.CreateAuction(EmptyStore(), 7, listing, 0);
    var s2 := TraderController.PlaceBid(s1, 1, id, 1010, 10);
    ScenarioSweep(TraderController.PlaceBid(s2.value, 1, id, 1020, 30).value);
  }

  /** The bidding half of the scenario: the listing is auction 0, the bids of
      1010 and 1020 are accepted and 1005 in between is refused. */
  lemma ScenarioBidding()
    ensures var listing := AuctionInput("Rashi", 500, "A", 1000, "Shivamogga", 100, None);
      var (s1, id) := FarmerController.CreateAuction(EmptyStore(), 7, listing, 0);
      var s2 := TraderController.PlaceBid(s1, 1, id, 1010, 10);
      && id == 0
      && s2.Ok?
      && TraderController.PlaceBid(s2.value, 2, id, 1005, 20) == Err(BidTooLow)
      && var s3 := TraderController.PlaceBid(s2.value, 1, id, 1020, 30);
      && s3.Ok?
      && s3.value.bids == [Bid(0, 1, 1010, 10), Bid(0, 1, 1020, 30)]
      && |s3.value.auctions| == 1
      && s3.value.auctions[0].status == Active && s3.value.auctions[0].endTime == 100
      && s3.value.auctions[0].farmerId == 7 && s3.value.auctions[0].currentHighestBid == 1020
      && s3.value.transactions == []
  {
    var listing := AuctionInput("Rashi", 500, "A", 1000, "Shivamogga", 100, None);
    var (s1, id) := FarmerController.CreateAuction(EmptyStore(), 7, listing, 0);
    assert id == 0;
    var s2 := TraderController.PlaceBid(s1, 1, id, 1010, 10);
    assert s2.Ok?;
    assert TraderController.PlaceBid(s2.value, 2, id, 1005, 20) == Err(BidTooLow);
    var s3 := TraderController.PlaceBid(s2.value, 1, id, 1020, 30);
    assert s3.Ok?;
  }

  /** The sweep half of the scenario: a single active auction of farmer 7
      ending at 100, with the bids of 1010 and 1020 by trader 1, is completed
      by the sweep at 100 and settled at 1020 to that trader. */
  lemma ScenarioSweep(s3: Store)
    requires s3.bids == [Bid(0, 1, 1010, 10), Bid(0, 1, 1020, 30)]
    requires |s3.auctions| == 1 && s3.auctions[0].status == Active && s3.auctions[0].endTime == 100
    requires s3.auctions[0].farmerId == 7 && s3.transactions == []
    ensures var (s4, count) := AuctionService.Sweep(s3, 100);
      && count == 1
      && s4.auctions[0].status == Completed
      && s4.transactions == [Transaction(0, 7, 1, 1020, PendingPayment, None, None, 100)]
  {
    assert (set i | 0 <= i < |s3.auctions| && AuctionService.Expired(s3.auctions[i], 100)) == {0};
    assert HasBids(s3.bids, 0);
    ScenarioSettlement(s3);
  }

  /** The settlement the sweep records in the scenario. */
  lemma ScenarioSettlement(s3: Store)
    requires s3.bids == [Bid(0, 1, 1010, 10), Bid(0, 1, 1020, 30)]
    requires |s3.auctions| == 1 && s3.auctions[0].status == Active && s3.auctions[0].endTime == 100
    requires s3.auctions[0].farmerId == 7
    ensures AuctionService.Settlements(s3, AuctionService.ExpiredIds(s3.auctions, 100), 100)
         == [Transaction(0, 7, 1, 1020, PendingPayment, None, None, 100)]
  {
    var ids := AuctionService.ExpiredIds(s3.auctions, 100);
    assert ids == [0] by {
      assert s3.auctions[..0] == [];
    }
    assert WinningBid(s3.bids, 0) == Some(Bid(0, 1, 1020, 30)) by {
      assert BidsFor(s3.bids, 0) == [Bid(0, 1, 1010, 10), Bid(0, 1, 1020, 30)] by {
        assert s3.bids[..1] == [Bid(0, 1, 1010, 10)];
        assert s3.bids[..1][..0] == [];
      }
      var xs := BidsFor(s3.bids, 0);
      assert xs[..1] == [Bid(0, 1, 1010, 10)];
      assert xs[..1][..0] == [];
    }
    assert ids[..0] == [];
  }
}

=== FILE: farmer_controller.dfy ===
/** Listing produce for auction (server/controllers/farmerController.js). */
module FarmerController {
  import opened Outcomes
  import opened Market
  import opened Schemas
  import TraderController
  import AuctionService
  import Strings

  /** `createAuction`: the new auction takes the next id, belongs to the
      calling farmer, starts active with its current highest bid at the base
      price, and is the only change to the store. The second component is the
      new id. */
  function CreateAuction(s: Store, farmerId: nat, input: AuctionInput, now: int): (r: (Store, nat))
    ensures r.1 == |s.auctions| && |r.0.auctions| == |s.auctions| + 1
    ensures r.0.auctions[..|s.auctions|] == s.auctions
    ensures var a := r.0.auctions[r.1];
      && a.farmerId == farmerId
      && a.status == Active
      && a.currentHighestBid == input.basePrice
      && a.updatedAt == now
      && a.variety == input.variety && a.quantity == input.quantity
      && a.qualityGrade == input.qualityGrade && a.basePrice == input.basePrice
      && a.location == input.location && a.endTime == input.endTime && a.image == input.image
    ensures r.0.bids == s.bids && r.0.transactions == s.transactions && r.0.users == s.users
  {
    var a := Auction(farmerId, input.variety, input.quantity, input.qualityGrade, input.basePrice,
                     input.basePrice, input.location, input.endTime, input.image, Active, now);
    (s.(auctions := s.auctions + [a]), |s.auctions|)
  }

  /** `getMyAuctions`: the caller's own auctions, newest first. */
  function GetMyAuctions(s: Store, farmerId: nat): (r: seq<nat>)
    ensures forall i :: i in r <==> 0 <= i < |s.auctions| && s.auctions[i].farmerId == farmerId
    ensures forall k, l | 0 <= k < l < |r| :: r[k] > r[l]
  {
    SelectNewestFirst(s.auctions, (a: Auction) => a.farmerId == farmerId)
  }

  /** A freshly created auction heads its farmer's list: it is the newest. */
  lemma CreatedAuctionListedFirst(s: Store, farmerId: nat, input: AuctionInput, now: int)
    ensures var (t, id) := CreateAuction(s, farmerId, input, now);
      |GetMyAuctions(t, farmerId)| > 0 && GetMyAuctions(t, farmerId)[0] == id
  {
    var (t, id) := CreateAuction(s, farmerId, input, now);
    var r := GetMyAuctions(t, farmerId);
    assert id in r;
  }

  /** Since the current highest bid starts at the base price, a new auction
      accepts exactly the bids above its base price placed no later than its
      end time. */
  lemma FirstBidMustExceedBasePrice(s: Store, farmerId: nat, input: AuctionInput, now: int,
                                    traderId: nat, amount: int, at: int)
    ensures var (t, id) := CreateAuction(s, farmerId, input, now);
      TraderController.PlaceBid(t, traderId, id, amount, at).Ok? <==> amount > input.basePrice && at <= input.endTime
    ensures var (t, id) := CreateAuction(s, farmerId, input, now);
      at <= input.endTime && amount <= input.basePrice ==> TraderController.PlaceBid(t, traderId, id, amount, at) == Err(BidTooLow)
  {
  }

  /** `POST /create-auction`: the auction schema runs before the handler; a
      body it refuses changes nothing. */
  function CreateAuctionRoute(s: Store, farmerId: nat, input: AuctionInput, now: int): (r: Result<(Store, nat)>)
    ensures r.Err? <==> !ValidAuction(input, now)
    ensures r.Err? ==> r.error == InvalidInput
    ensures r.Ok? ==> r.value == CreateAuction(s, farmerId, input, now)
    ensures r.Ok? ==> var a := r.value.0.auctions[r.value.1];
      a.basePrice >= 1 && 1 <= a.quantity <= 100000 && a.endTime > now
  {
    if ValidAuction(input, now) then Ok(CreateAuction(s, farmerId, input, now)) else Err(InvalidInput)
  }

  /** An auction accepted at time `now` ends strictly later, so the expiry
      sweep run at that same time leaves it open for bidding. */
  lemma FreshAuctionSurvivesSweep(s: Store, farmerId: nat, input: AuctionInput, now: int)
    requires CreateAuctionRoute(s, farmerId, input, now).Ok?
    ensures var (t, id) := CreateAuctionRoute(s, farmerId, input, now).value;
      && AuctionService.Sweep(t, now).0.auctions[id] == t.auctions[id]
      && AuctionService.Sweep(t, now).0.auctions[id].status == Active
  {
  }

  /** With the model's integer amounts, every bid a listed auction accepts
      exceeds a base price of at least 1 and so is at least 2; the amount rule
      of `bidSchema` never refuses it, and the schema's verdict on such a bid
      rests on the auction key alone. (JavaScript numbers are not integers: a
      bid of 1.5 on a base price of 1 would pass too.) No route in these files
      applies `bidSchema`; the lemma compares the two rules. */
  lemma AcceptedBidPassesBidAmountRule(s: Store, farmerId: nat, input: AuctionInput, now: int,
                                      traderId: nat, amount: int, at: int, auctionKey: string)
    requires CreateAuctionRoute(s, farmerId, input, now).Ok?
    requires var (t, id) := CreateAuctionRoute(s, farmerId, input, now).value;
      TraderController.PlaceBid(t, traderId, id, amount, at).Ok?
    ensures amount >= 2
    ensures ValidBid(auctionKey, amount) <==>
      |auctionKey| == 24 && forall k | 0 <= k < |auctionKey| :: Strings.IsHexDigit(auctionKey[k])
  {
  }
}

=== FILE: invariants.dfy ===
/** The marketplace invariant and its preservation by every state-changing
    request: the bid ledger of each auction rises strictly and its current
    highest bid is the ledger's last (and largest) amount, an auction is
    completed exactly when it was closed with bids, and each completed
    auction has exactly one transaction, which settles its winning bid. */
module Invariants {
  import opened Outcomes
  import opened Market
  import opened Schemas
  import AuctionService
  import TraderController
  import AdminController
  import FarmerController
  import PaymentRoutes
  import AuthController

  /** Every bid names an existing auction. */
  predicate BidsRefer(auctions: seq<Auction>, bids: seq<Bid>) {
    forall k | 0 <= k < |bids| :: bids[k].auctionId < |auctions|
  }

  /** The current highest bid an auction shows for its ledger `xs`. */
  function ShownHigh(base: int, xs: seq<Bid>): int {
    if |xs| == 0 then base else xs[|xs| - 1].amount
  }

  /** The ledger of auction `i` rises strictly above the base price, the
      cached highest bid is its last amount, and the status agrees with it. */
  predicate LedgerOk(auctions: seq<Auction>, bids: seq<Bid>, i: nat)
    requires i < |auctions|
  {
    var a := auctions[i];
    var xs := BidsFor(bids, i);
    && StrictlyIncreasing(xs)
    && (forall k | 0 <= k < |xs| :: xs[k].amount > a.basePrice)
    && a.currentHighestBid == ShownHigh(a.basePrice, xs)
    && a.status != Pending
    && (a.status == Closed ==> |xs| == 0)
    && (a.status == Completed ==> |xs| > 0)
  }

  predicate LedgersOk(auctions: seq<Auction>, bids: seq<Bid>) {
    && BidsRefer(auctions, bids)
    && forall i | 0 <= i < |auctions| :: LedgerOk(auctions, bids, i)
  }

  /** Transaction `t` settles a completed auction at its winning bid. */
  predicate TxnOk(auctions: seq<Auction>, bids: seq<Bid>, t: Transaction) {
    && t.auctionId < |auctions|
    && auctions[t.auctionId].status == Completed
    && WinningBid(bids, t.auctionId).Some?
    && t.finalAmount == auctions[t.auctionId].currentHighestBid
    && t.farmerId == auctions[t.auctionId].farmerId
    && t.traderId == WinningBid(bids, t.auctionId).value.traderId
  }

  /** Some transaction is recorded for auction `i`. */
  predicate Settled(ts: seq<Transaction>, i: nat) {
    exists k | 0 <= k < |ts| :: ts[k].auctionId == i
  }

  predicate DistinctAuctions(ts: seq<Transaction>) {
    forall k, l | 0 <= k < l < |ts| :: ts[k].auctionId != ts[l].auctionId
  }

  /** Every transaction settles a completed auction, no auction has two, and
      every completed auction has one. */
  predicate SettlementsOk(auctions: seq<Auction>, bids: seq<Bid>, ts: seq<Transaction>) {
    && (forall k | 0 <= k < |ts| :: TxnOk(auctions, bids, ts[k]))
    && DistinctAuctions(ts)
    && (forall i | 0 <= i < |auctions| && auctions[i].status == Completed :: Settled(ts, i))
  }

  predicate Inv(s: Store) {
    LedgersOk(s.auctions, s.bids) && SettlementsOk(s.auctions, s.bids, s.transactions)
  }

  lemma EmptyStoreInv()
    ensures Inv(EmptyStore())
  {
  }

  /** A ledger without any bid of the auction is empty. */
  lemma NoBidsEmptyLedger(bids: seq<Bid>, id: nat)
    requires forall k | 0 <= k < |bids| :: bids[k].auctionId != id
    ensures BidsFor(bids, id) == []
  {
  }

  /** The auction has bids exactly when its ledger is non-empty. */
  lemma HasBidsIffLedger(bids: seq<Bid>, id: nat)
    ensures HasBids(bids, id) <==> |BidsFor(bids, id)| > 0
  {
    var xs := BidsFor(bids, id);
    if |xs| > 0 {
      assert xs[0] in xs;
    }
    if HasBids(bids, id) {
      var b :| b in bids && b.auctionId == id;
      assert b in xs;
    }
  }

  /** A bid above both the shown highest bid and the base price extends a
      well-formed ledger to a well-formed ledger whose last amount is the
      new bid. */
  lemma LedgerExtend(xs: seq<Bid>, b: Bid, base: int)
    requires StrictlyIncreasing(xs)
    requires forall k | 0 <= k < |xs| :: xs[k].amount > base
    requires b.amount > ShownHigh(base, xs) && b.amount > base
    ensures StrictlyIncreasing(xs + [b])
    ensures forall k | 0 <= k < |xs + [b]| :: (xs + [b])[k].amount > base
    ensures ShownHigh(base, xs + [b]) == b.amount
  {
    var ys := xs + [b];
    forall i, j | 0 <= i < j < |ys| ensures ys[i].amount < ys[j].amount {
      if j == |xs| && i < |xs| - 1 {
        assert xs[i].amount < xs[|xs| - 1].amount;
      }
    }
  }

  /** In well-formed ledgers the winning bid of an auction with bids is the
      last one accepted, and its amount is the auction's current highest bid. */
  lemma WinnerIsShownHigh(auctions: seq<Auction>, bids: seq<Bid>, id: nat)
    requires LedgersOk(auctions, bids) && id < |auctions| && HasBids(bids, id)
    ensures WinningBid(bids, id).Some?
    ensures WinningBid(bids, id).value.amount == auctions[id].currentHighestBid
  {
    assert LedgerOk(auctions, bids, id);
    HasBidsIffLedger(bids, id);
    MaxOfIncreasingIsLast(BidsFor(bids, id));
  }

  /** A transaction never belongs to an active auction. */
  lemma ActiveUnsettled(auctions: seq<Auction>, bids: seq<Bid>, ts: seq<Transaction>, id: nat)
    requires SettlementsOk(auctions, bids, ts) && id < |auctions| && auctions[id].status == Active
    ensures forall k | 0 <= k < |ts| :: ts[k].auctionId != id
  {
    forall k | 0 <= k < |ts| ensures ts[k].auctionId != id {
      assert TxnOk(auctions, bids, ts[k]);
    }
  }

  /** A bid on an active auction keeps the ledgers well formed. */
  lemma PlaceBidKeepsLedgers(s: Store, traderId: nat, id: nat, amount: int, now: int)
    requires LedgersOk(s.auctions, s.bids)
    requires TraderController.PlaceBid(s, traderId, id, amount, now).Ok?
    ensures LedgersOk(TraderController.PlaceBid(s, traderId, id, amount, now).value.auctions,
                      TraderController.PlaceBid(s, traderId, id, amount, now).value.bids)
  {
    var t := TraderController.PlaceBid(s, traderId, id, amount, now).value;
    var b := Bid(id, traderId, amount, now);
    assert t.bids == s.bids + [b];
    forall j | 0 <= j < |t.auctions| ensures LedgerOk(t.auctions, t.bids, j) {
      assert LedgerOk(s.auctions, s.bids, j);
      if j == id {
        BidLedgerExtended(s.auctions, s.bids, t.auctions, b);
      } else {
        OtherLedgerKept(s.auctions, s.bids, t.auctions, b, j);
      }
    }
  }

  /** The ledger of an auction other than the one bid on does not change. */
  lemma OtherLedgerKept(auctions: seq<Auction>, bids: seq<Bid>, auctions': seq<Auction>, b: Bid, j: nat)
    requires j < |auctions| && j != b.auctionId && |auctions'| == |auctions| && auctions'[j] == auctions[j]
    requires LedgerOk(auctions, bids, j)
    ensures LedgerOk(auctions', bids + [b], j)
  {
    BidsForAppend(bids, b, j);
  }

  /** A bid above both the current highest bid and the base price extends
      the ledger of its active auction and becomes its shown highest bid. */
  lemma BidLedgerExtended(auctions: seq<Auction>, bids: seq<Bid>, auctions': seq<Auction>, b: Bid)
    requires b.auctionId < |auctions| && |auctions'| == |auctions|
    requires LedgerOk(auctions, bids, b.auctionId)
    requires auctions[b.auctionId].status == Active
    requires b.amount > auctions[b.auctionId].currentHighestBid && b.amount > auctions[b.auctionId].basePrice
    requires auctions'[b.auctionId]
          == auctions[b.auctionId].(currentHighestBid := b.amount, updatedAt := auctions'[b.auctionId].updatedAt)
    ensures LedgerOk(auctions', bids + [b], b.auctionId)
  {
    var id := b.auctionId;
    BidsForAppend(bids, b, id);
    LedgerExtend(BidsFor(bids, id), b, auctions[id].basePrice);
  }

  /** The winning bid of an auction depends only on its own ledger. */
  lemma WinningBidFrame(bids: seq<Bid>, bids': seq<Bid>, id: nat)
    requires BidsFor(bids', id) == BidsFor(bids, id)
    ensures WinningBid(bids', id) == WinningBid(bids, id)
  {
  }

  /** A bid on an active auction leaves every settlement valid: transactions
      belong to completed auctions, whose ledgers and fields do not change. */
  lemma BidKeepsSettlements(auctions: seq<Auction>, bids: seq<Bid>, ts: seq<Transaction>,
                            auctions': seq<Auction>, b: Bid)
    requires SettlementsOk(auctions, bids, ts)
    requires b.auctionId < |auctions| && auctions[b.auctionId].status == Active
    requires |auctions'| == |auctions| && auctions'[b.auctionId].status == Active
    requires forall j | 0 <= j < |auctions| && j != b.auctionId :: auctions'[j] == auctions[j]
    ensures SettlementsOk(auctions', bids + [b], ts)
  {
    ActiveUnsettled(auctions, bids, ts, b.auctionId);
    forall k | 0 <= k < |ts| ensures TxnOk(auctions', bids + [b], ts[k]) {
      var j := ts[k].auctionId;
      assert TxnOk(auctions, bids, ts[k]);
      assert auctions'[j] == auctions[j];
      BidsForAppend(bids, b, j);
      WinningBidFrame(bids, bids + [b], j);
    }
    forall i | 0 <= i < |auctions'| && auctions'[i].status == Completed ensures Settled(ts, i) {
      assert auctions[i].status == Completed;
    }
  }

  lemma PlaceBidPreservesInv(s: Store, traderId: nat, id: nat, amount: int, now: int)
    requires Inv(s)
    requires TraderController.PlaceBid(s, traderId, id, amount, now).Ok?
    ensures Inv(TraderController.PlaceBid(s, traderId, id, amount, now).value)
  {
    var t := TraderController.PlaceBid(s, traderId, id, amount, now).value;
    PlaceBidKeepsLedgers(s, traderId, id, amount, now);
    BidKeepsSettlements(s.auctions, s.bids, s.transactions, t.auctions, Bid(id, traderId, amount, now));
  }

  /** Closing an active auction keeps the ledgers well formed. */
  lemma CloseActiveKeepsLedgers(s: Store, id: nat, now: int)
    requires LedgersOk(s.auctions, s.bids) && id < |s.auctions| && s.auctions[id].status == Active
    ensures LedgersOk(AuctionService.CloseAuction(s, id, now).auctions, AuctionService.CloseAuction(s, id, now).bids)
  {
    var t := AuctionService.CloseAuction(s, id, now);
    HasBidsIffLedger(s.bids, id);
    forall j | 0 <= j < |t.auctions| ensures LedgerOk(t.auctions, t.bids, j) {
      assert LedgerOk(s.auctions, s.bids, j);
    }
  }

  /** Closing an active auction leaves every existing transaction valid:
      none of them belongs to it, and no other auction changes. */
  lemma CloseKeepsTxns(auctions: seq<Auction>, bids: seq<Bid>, ts: seq<Transaction>,
                       auctions': seq<Auction>, id: nat)
    requires forall k | 0 <= k < |ts| :: TxnOk(auctions, bids, ts[k])
    requires id < |auctions| && auctions[id].status == Active
    requires |auctions'| == |auctions|
    requires forall j | 0 <= j < |auctions| && j != id :: auctions'[j] == auctions[j]
    ensures forall k | 0 <= k < |ts| :: TxnOk(auctions', bids, ts[k])
  {
    forall k | 0 <= k < |ts| ensures TxnOk(auctions', bids, ts[k]) {
      assert TxnOk(auctions, bids, ts[k]);
      assert auctions'[ts[k].auctionId] == auctions[ts[k].auctionId];
    }
  }

  /** Appending transactions for auctions not yet settled keeps the records
      valid and distinct. */
  lemma AppendKeepsSettlements(auctions: seq<Auction>, bids: seq<Bid>, ts: seq<Transaction>, extra: seq<Transaction>)
    requires forall k | 0 <= k < |ts| :: TxnOk(auctions, bids, ts[k])
    requires forall k | 0 <= k < |extra| :: TxnOk(auctions, bids, extra[k])
    requires DistinctAuctions(ts) && DistinctAuctions(extra)
    requires forall k, l | 0 <= k < |ts| && 0 <= l < |extra| :: ts[k].auctionId != extra[l].auctionId
    ensures forall k | 0 <= k < |ts + extra| :: TxnOk(auctions, bids, (ts + extra)[k])
    ensures DistinctAuctions(ts + extra)
  {
    var all := ts + extra;
    forall k | 0 <= k < |all| ensures TxnOk(auctions, bids, all[k]) {
      if k >= |ts| { assert all[k] == extra[k - |ts|]; }
    }
    forall k, l | 0 <= k < l < |all| ensures all[k].auctionId != all[l].auctionId {
      if l < |ts| {
      } else if k >= |ts| {
        assert all[k] == extra[k - |ts|] && all[l] == extra[l - |ts|];
      } else {
        assert all[l] == extra[l - |ts|];
      }
    }
  }

  /** After closing auction `id`, every completed auction still has a
      transaction, given one for `id` itself when it completed. */
  lemma CloseKeepsCoverage(auctions: seq<Auction>, ts: seq<Transaction>, auctions': seq<Auction>,
                           extra: seq<Transaction>, id: nat)
    requires forall i | 0 <= i < |auctions| && auctions[i].status == Completed :: Settled(ts, i)
    requires |auctions'| == |auctions|
    requires forall j | 0 <= j < |auctions| && j != id :: auctions'[j] == auctions[j]
    requires id < |auctions| && auctions'[id].status == Completed ==> Settled(extra, id)
    ensures forall i | 0 <= i < |auctions'| && auctions'[i].status == Completed :: Settled(ts + extra, i)
  {
    var all := ts + extra;
    forall i | 0 <= i < |auctions'| && auctions'[i].status == Completed ensures Settled(all, i) {
      if i == id {
        var l :| 0 <= l < |extra| && extra[l].auctionId == i;
        assert all[|ts| + l] == extra[l];
      } else {
        assert auctions[i] == auctions'[i];
        var k :| 0 <= k < |ts| && ts[k].auctionId == i;
        assert all[k] == ts[k];
      }
    }
  }

  /** Closing an active auction keeps the invariant: this is the guard both
      callers of `closeAuction` supply. */
  lemma CloseActivePreservesInv(s: Store, id: nat, now: int)
    requires Inv(s) && id < |s.auctions| && s.auctions[id].status == Active
    ensures Inv(AuctionService.CloseAuction(s, id, now))
  {
    var t := AuctionService.CloseAuction(s, id, now);
    var extra := AuctionService.SettlementOf(s, id, now);
    assert t.transactions == s.transactions + extra;
    CloseActiveKeepsLedgers(s, id, now);
    ActiveUnsettled(s.auctions, s.bids, s.transactions, id);
    CloseKeepsTxns(s.auctions, s.bids, s.transactions, t.auctions, id);
    if |extra| == 1 {
      WinnerIsShownHigh(s.auctions, s.bids, id);
      assert TxnOk(t.auctions, t.bids, extra[0]);
      assert Settled(extra, id);
    }
    AppendKeepsSettlements(t.auctions, t.bids, s.transactions, extra);
    CloseKeepsCoverage(s.auctions, s.transactions, t.auctions, extra, id);
  }

  /** Closing a list of distinct active auctions one after the other keeps
      the invariant. */
  lemma {:induction false} CloseEachPreservesInv(s: Store, ids: seq<nat>, now: int)
    requires Inv(s)
    requires AuctionService.Ascending(ids)
    requires forall k | 0 <= k < |ids| :: ids[k] < |s.auctions| && s.auctions[ids[k]].status == Active
    ensures Inv(AuctionService.CloseEach(s, ids, now))
  {
    if |ids| > 0 {
      var n := |ids| - 1;
      var prefix := ids[..n];
      CloseEachPreservesInv(s, prefix, now);
      AuctionService.CloseEachFrame(s, prefix, now);
      assert ids[n] !in prefix;
      CloseActivePreservesInv(AuctionService.CloseEach(s, prefix, now), ids[n], now);
    }
  }

  lemma SweepPreservesInv(s: Store, now: int)
    requires Inv(s)
    ensures Inv(AuctionService.Sweep(s, now).0)
  {
    CloseEachPreservesInv(s, AuctionService.ExpiredIds(s.auctions, now), now);
  }

  /** Under the invariant a trader can initiate payment only for a completed
      auction, which already holds its transaction: the route then updates
      that transaction and never appends one. */
  lemma CreatePaymentNeverAppends(s: Store, caller: Caller, id: nat, paymentMethod: Option<string>,
                                  notes: Option<string>, now: int)
    requires Inv(s)
    requires PaymentRoutes.CreatePayment(s, caller, id, paymentMethod, notes, now).Ok?
    ensures s.auctions[id].status == Completed
    ensures FindTransaction(s.transactions, id).Some?
    ensures |PaymentRoutes.CreatePayment(s, caller, id, paymentMethod, notes, now).value.transactions| == |s.transactions|
  {
    assert LedgerOk(s.auctions, s.bids, id);
    HasBidsIffLedger(s.bids, id);
    assert Settled(s.transactions, id);
  }

  /** Changing only fields of one transaction that the invariant does not
      read keeps it. */
  lemma RewriteKeepsSettlements(auctions: seq<Auction>, bids: seq<Bid>, ts: seq<Transaction>, k: nat, t: Transaction)
    requires SettlementsOk(auctions, bids, ts) && k < |ts|
    requires t.auctionId == ts[k].auctionId && t.finalAmount == ts[k].finalAmount
    requires t.farmerId == ts[k].farmerId && t.traderId == ts[k].traderId
    ensures SettlementsOk(auctions, bids, ts[k := t])
  {
    assert TxnOk(auctions, bids, t) by {
      assert TxnOk(auctions, bids, ts[k]);
    }
    RewriteKeepsTxns(auctions, bids, ts, k, ts[k := t]);
    RewriteKeepsIds(auctions, ts, k, t);
  }

  lemma RewriteKeepsTxns(auctions: seq<Auction>, bids: seq<Bid>, ts: seq<Transaction>, k: nat, us: seq<Transaction>)
    requires k < |ts| == |us| && TxnOk(auctions, bids, us[k])
    requires forall j | 0 <= j < |ts| && j != k :: us[j] == ts[j]
    requires forall j | 0 <= j < |ts| :: TxnOk(auctions, bids, ts[j])
    ensures forall j | 0 <= j < |us| :: TxnOk(auctions, bids, us[j])
  {
  }

  /** Keeping a transaction's auction keeps which auctions are settled, and how often. */
  lemma RewriteKeepsIds(auctions: seq<Auction>, ts: seq<Transaction>, k: nat, t: Transaction)
    requires k < |ts| && t.auctionId == ts[k].auctionId
    requires DistinctAuctions(ts)
    requires forall i | 0 <= i < |auctions| && auctions[i].status == Completed :: Settled(ts, i)
    ensures DistinctAuctions(ts[k := t])
    ensures forall i | 0 <= i < |auctions| && auctions[i].status == Completed :: Settled(ts[k := t], i)
  {
    var us := ts[k := t];
    assert forall j | 0 <= j < |us| :: us[j].auctionId == ts[j].auctionId;
    forall i | 0 <= i < |auctions| && auctions[i].status == Completed ensures Settled(us, i) {
      var j :| 0 <= j < |ts| && ts[j].auctionId == i;
      assert us[j].auctionId == i;
    }
  }

  lemma CreatePaymentPreservesInv(s: Store, caller: Caller, id: nat, paymentMethod: Option<string>,
                                  notes: Option<string>, now: int)
    requires Inv(s)
    requires PaymentRoutes.CreatePayment(s, caller, id, paymentMethod, notes, now).Ok?
    ensures Inv(PaymentRoutes.CreatePayment(s, caller, id, paymentMethod, notes, now).value)
  {
    CreatePaymentNeverAppends(s, caller, id, paymentMethod, notes, now);
    var k := FindTransaction(s.transactions, id).value;
    var t := s.transactions[k].(paymentMethod := paymentMethod, notes := notes, transactionDate := now);
    RewriteKeepsSettlements(s.auctions, s.bids, s.transactions, k, t);
    assert PaymentRoutes.CreatePayment(s, caller, id, paymentMethod, notes, now).value.transactions
        == s.transactions[k := t];
  }

  lemma UpdatePaymentStatusPreservesInv(s: Store, caller: Caller, paymentId: nat, status: string)
    requires Inv(s)
    requires PaymentRoutes.UpdatePaymentStatus(s, caller, paymentId, status).Ok?
    ensures Inv(PaymentRoutes.UpdatePaymentStatus(s, caller, paymentId, status).value)
  {
    var t := s.transactions[paymentId].(paymentStatus := status);
    RewriteKeepsSettlements(s.auctions, s.bids, s.transactions, paymentId, t);
    assert PaymentRoutes.UpdatePaymentStatus(s, caller, paymentId, status).value.transactions
        == s.transactions[paymentId := t];
  }

  /** A new auction starts with an empty ledger, so listing it keeps the
      invariant. */
  lemma CreateAuctionPreservesInv(s: Store, farmerId: nat, input: AuctionInput, now: int)
    requires Inv(s)
    ensures Inv(FarmerController.CreateAuction(s, farmerId, input, now).0)
  {
    var (t, id) := FarmerController.CreateAuction(s, farmerId, input, now);
    NoBidsEmptyLedger(s.bids, id);
    forall j | 0 <= j < |t.auctions| ensures LedgerOk(t.auctions, t.bids, j) {
      if j < id {
        assert LedgerOk(s.auctions, s.bids, j);
      }
    }
    forall k | 0 <= k < |t.transactions| ensures TxnOk(t.auctions, t.bids, t.transactions[k]) {
      assert TxnOk(s.auctions, s.bids, s.transactions[k]);
    }
  }

  /** The requests that change the store, each as its route runs it. A bid
      goes through `placeBid` as written, whatever the caller's role, so the
      role-checked bid reaches a subset of these stores. */
  datatype Op =
    | CreateAuctionOp(farmerId: nat, listing: AuctionInput, now: int)
    | PlaceBidOp(caller: Caller, auctionId: nat, amount: int, now: int)
    | TerminateOp(auctionId: nat, now: int)
    | SweepOp(now: int)
    | CreatePaymentOp(caller: Caller, auctionId: nat, paymentMethod: Option<string>, notes: Option<string>, now: int)
    | UpdatePaymentStatusOp(caller: Caller, paymentId: nat, status: string)
    | RegisterOp(registration: RegisterInput)
    | ApproveUserOp(userId: nat)

  /** The store after a request; a refused request leaves it as it was. */
  function Apply(s: Store, op: Op): Store {
    match op
    case CreateAuctionOp(farmerId, input, now) =>
      var r := FarmerController.CreateAuctionRoute(s, farmerId, input, now);
      if r.Ok? then r.value.0 else s
    case PlaceBidOp(caller, id, amount, now) =>
      var r := TraderController.PlaceBid(s, caller.id, id, amount, now);
      if r.Ok? then r.value else s
    case TerminateOp(id, now) =>
      var r := AdminController.TerminateAuction(s, id, now);
      if r.Ok? then r.value else s
    case SweepOp(now) => AuctionService.Sweep(s, now).0
    case CreatePaymentOp(caller, id, paymentMethod, notes, now) =>
      var r := PaymentRoutes.CreatePayment(s, caller, id, paymentMethod, notes, now);
      if r.Ok? then r.value else s
    case UpdatePaymentStatusOp(caller, paymentId, status) =>
      var r := PaymentRoutes.UpdatePaymentStatus(s, caller, paymentId, status);
      if r.Ok? then r.value else s
    case RegisterOp(input) =>
      var r := AuthController.RegisterRoute(s, input);
      if r.Ok? then r.value else s
    case ApproveUserOp(userId) =>
      var r := AdminController.ApproveUser(s, userId);
      if r.Ok? then r.value else s
  }

  /** Every request keeps the invariant. */
  lemma ApplyPreservesInv(s: Store, op: Op)
    requires Inv(s)
    ensures Inv(Apply(s, op))
  {
    match op
    case CreateAuctionOp(farmerId, input, now) => CreateAuctionOpKeepsInv(s, farmerId, input, now);
    case PlaceBidOp(caller, id, amount, now) => PlaceBidOpKeepsInv(s, caller, id, amount, now);
    case TerminateOp(id, now) => TerminateOpKeepsInv(s, id, now);
    case SweepOp(now) => SweepPreservesInv(s, now);
    case CreatePaymentOp(caller, id, paymentMethod, notes, now) =>
      CreatePaymentOpKeepsInv(s, caller, id, paymentMethod, notes, now);
    case UpdatePaymentStatusOp(caller, paymentId, status) =>
      UpdatePaymentStatusOpKeepsInv(s, caller, paymentId, status);
    case RegisterOp(input) => UsersOnlyKeepInv(s, Apply(s, op));
    case ApproveUserOp(userId) => UsersOnlyKeepInv(s, Apply(s, op));
  }

  lemma CreateAuctionOpKeepsInv(s: Store, farmerId: nat, input: AuctionInput, now: int)
    requires Inv(s)
    ensures Inv(Apply(s, CreateAuctionOp(farmerId, input, now)))
  {
    if FarmerController.CreateAuctionRoute(s, farmerId, input, now).Ok? {
      CreateAuctionPreservesInv(s, farmerId, input, now);
    }
  }

  lemma PlaceBidOpKeepsInv(s: Store, caller: Caller, id: nat, amount: int, now: int)
    requires Inv(s)
    ensures Inv(Apply(s, PlaceBidOp(caller, id, amount, now)))
  {
    if TraderController.PlaceBid(s, caller.id, id, amount, now).Ok? {
      PlaceBidPreservesInv(s, caller.id, id, amount, now);
    }
  }

  lemma TerminateOpKeepsInv(s: Store, id: nat, now: int)
    requires Inv(s)
    ensures Inv(Apply(s, TerminateOp(id, now)))
  {
    if AdminController.TerminateAuction(s, id, now).Ok? {
      CloseActivePreservesInv(s, id, now);
    }
  }

  lemma CreatePaymentOpKeepsInv(s: Store, caller: Caller, id: nat, paymentMethod: Option<string>,
                                notes: Option<string>, now: int)
    requires Inv(s)
    ensures Inv(Apply(s, CreatePaymentOp(caller, id, paymentMethod, notes, now)))
  {
    var op := CreatePaymentOp(caller, id, paymentMethod, notes, now);
    var r := PaymentRoutes.CreatePayment(s, caller, id, paymentMethod, notes, now);
    assert Apply(s, op) == if r.Ok? then r.value else s;
    if r.Ok? {
      CreatePaymentPreservesInv(s, caller, id, paymentMethod, notes, now);
    }
  }

  lemma UpdatePaymentStatusOpKeepsInv(s: Store, caller: Caller, paymentId: nat, status: string)
    requires Inv(s)
    ensures Inv(Apply(s, UpdatePaymentStatusOp(caller, paymentId, status)))
  {
    if PaymentRoutes.UpdatePaymentStatus(s, caller, paymentId, status).Ok? {
      UpdatePaymentStatusPreservesInv(s, caller, paymentId, status);
    }
  }

  /** A request that changes only the users keeps the invariant. */
  lemma UsersOnlyKeepInv(s: Store, t: Store)
    requires Inv(s)
    requires t.auctions == s.auctions && t.bids == s.bids && t.transactions == s.transactions
    ensures Inv(t)
  {
  }

  /** The store after a sequence of requests, first to last. */
  function Run(s: Store, ops: seq<Op>): Store {
    if |ops| == 0 then s else Apply(Run(s, ops[..|ops| - 1]), ops[|ops| - 1])
  }

  /** Every store reachable from the empty store satisfies the invariant. */
  lemma {:induction false} ReachableInv(ops: seq<Op>)
    ensures Inv(Run(EmptyStore(), ops))
  {
    if |ops| == 0 {
      EmptyStoreInv();
    } else {
      ReachableInv(ops[..|ops| - 1]);
      ApplyPreservesInv(Run(EmptyStore(), ops[..|ops| - 1]), ops[|ops| - 1]);
    }
  }

  /** In every reachable store the accepted bids of an auction rise strictly
      and, once there is one, its current highest bid is the amount of its
      winning bid. */
  lemma ReachableCacheIsLedgerMax(ops: seq<Op>, id: nat)
    requires id < |Run(EmptyStore(), ops).auctions|
    ensures StrictlyIncreasing(BidsFor(Run(EmptyStore(), ops).bids, id))
    ensures HasBids(Run(EmptyStore(), ops).bids, id) ==>
      WinningBid(Run(EmptyStore(), ops).bids, id).value.amount == Run(EmptyStore(), ops).auctions[id].currentHighestBid
  {
    var s := Run(EmptyStore(), ops);
    ReachableInv(ops);
    assert LedgerOk(s.auctions, s.bids, id);
    if HasBids(s.bids, id) {
      WinnerIsShownHigh(s.auctions, s.bids, id);
    }
  }

  /** Under the invariant no auction has two transactions, and each
      completed auction has one, at its winning bid and to its winner. */
  lemma InvSettlement(s: Store, id: nat)
    requires Inv(s) && id < |s.auctions|
    ensures PaymentRoutes.TransactionsOf(s.transactions, id) <= 1
    ensures s.auctions[id].status == Completed ==>
      && FindTransaction(s.transactions, id).Some?
      && s.transactions[FindTransaction(s.transactions, id).value].finalAmount == WinningBid(s.bids, id).value.amount
      && s.transactions[FindTransaction(s.transactions, id).value].traderId == WinningBid(s.bids, id).value.traderId
  {
    DistinctCountsAtMostOne(s.transactions, id);
    if s.auctions[id].status == Completed {
      assert Settled(s.transactions, id);
      var k := FindTransaction(s.transactions, id).value;
      assert TxnOk(s.auctions, s.bids, s.transactions[k]);
      assert LedgerOk(s.auctions, s.bids, id);
      HasBidsIffLedger(s.bids, id);
      WinnerIsShownHigh(s.auctions, s.bids, id);
    }
  }

  /** In every reachable store no auction has two transactions, and each
      completed auction has one, at its winning bid and to its winner. */
  lemma ReachableSettlement(ops: seq<Op>, id: nat)
    requires id < |Run(EmptyStore(), ops).auctions|
    ensures PaymentRoutes.TransactionsOf(Run(EmptyStore(), ops).transactions, id) <= 1
    ensures Run(EmptyStore(), ops).auctions[id].status == Completed ==>
      FindTransaction(Run(EmptyStore(), ops).transactions, id).Some?
  {
    ReachableInv(ops);
    InvSettlement(Run(EmptyStore(), ops), id);
  }

  lemma {:induction false} DistinctCountsAtMostOne(ts: seq<Transaction>, id: nat)
    requires DistinctAuctions(ts)
    ensures PaymentRoutes.TransactionsOf(ts, id) <= 1
  {
    if |ts| > 0 {
      var n := |ts| - 1;
      var prefix := ts[..n];
      DistinctCountsAtMostOne(prefix, id);
      if ts[n].auctionId == id {
        PaymentRoutes.NoTransactionCountsZero(prefix, id);
      }
    }
  }
}

=== FILE: market.dfy ===
/** The marketplace's records and the one store that holds them.

    Auctions, bids, transactions and users are kept in sequences whose
    positions are their ids. This is a modelling choice: ids are taken to be
    handed out in creation order, and no operation of this model deletes a
    row, so "unknown id" means an id at or beyond the end of the sequence and
    "newest first" means descending id. */
module Market {
  import opened Outcomes

  datatype Status = Pending | Active | Closed | Completed

  /** The spelling stored in the `status` column. */
  function StatusName(st: Status): string {
    match st
    case Pending => "pending"
    case Active => "active"
    case Closed => "closed"
    case Completed => "completed"
  }

  datatype Role = Farmer | Trader | Admin

  /** The identity and role the authentication middleware attaches to a request. */
  datatype Caller = Caller(id: nat, role: Role)

  datatype Auction = Auction(
    farmerId: nat,
    variety: string,
    quantity: int,
    qualityGrade: string,
    basePrice: int,
    currentHighestBid: int,
    location: string,
    endTime: int,
    image: Option<string>,
    status: Status,
    updatedAt: int)

  datatype Bid = Bid(auctionId: nat, traderId: nat, amount: int, time: int)

  /** A settlement record. `paymentStatus` is free text: the update-status route
      stores whatever the client sends; the server itself writes "pending" and
      tests for "paid". */
  datatype Transaction = Transaction(
    auctionId: nat,
    farmerId: nat,
    traderId: nat,
    finalAmount: int,
    paymentStatus: string,
    paymentMethod: Option<string>,
    notes: Option<string>,
    transactionDate: int)

  /** `password` is the stored credential; checking a login attempt against it
      is a parameter of the login handler. */
  datatype User = User(
    name: string,
    email: string,
    password: string,
    role: Role,
    phone: Option<string>,
    farmLocation: Option<string>,
    apmcLicense: Option<string>,
    isApproved: bool)

  datatype Store = Store(
    auctions: seq<Auction>,
    bids: seq<Bid>,
    transactions: seq<Transaction>,
    users: seq<User>)

  const PendingPayment: string := "pending"
  const PaidPayment: string := "paid"

  function EmptyStore(): Store {
    Store([], [], [], [])
  }

  /** The bids placed on auction `id`, in ledger (acceptance) order. How
      often each bid occurs is `BidsForCounts`'s, the order `BidsForConcat`'s. */
  function BidsFor(bids: seq<Bid>, id: nat): (r: seq<Bid>)
    ensures |r| <= |bids|
    ensures forall b :: b in r <==> b in bids && b.auctionId == id
  {
    if |bids| == 0 then []
    else
      var last := bids[|bids| - 1];
      BidsFor(bids[..|bids| - 1], id) + (if last.auctionId == id then [last] else [])
  }

  /** Each bid of auction `id` occurs as often as the ledger holds it, and no
      other bid occurs. */
  lemma {:induction false} BidsForCounts(bids: seq<Bid>, id: nat)
    ensures forall b :: multiset(BidsFor(bids, id))[b] == if b.auctionId == id then multiset(bids)[b] else 0
  {
    if |bids| > 0 {
      var n := |bids| - 1;
      BidsForCounts(bids[..n], id);
      assert bids == bids[..n] + [bids[n]];
    }
  }

  /** Selecting an auction's bids keeps the ledger's order: the bids of a
      ledger made of two parts are those of the first part followed by those
      of the second. */
  lemma {:induction false} BidsForConcat(a: seq<Bid>, b: seq<Bid>, id: nat)
    ensures BidsFor(a + b, id) == BidsFor(a, id) + BidsFor(b, id)
  {
    if |b| == 0 {
      assert a + b == a;
    } else {
      var n := |b| - 1;
      BidsForConcat(a, b[..n], id);
      BidsForConcatStep(a, b[..n], b[n], id);
      assert b == b[..n] + [b[n]];
    }
  }

  lemma BidsForConcatStep(a: seq<Bid>, c: seq<Bid>, x: Bid, id: nat)
    requires BidsFor(a + c, id) == BidsFor(a, id) + BidsFor(c, id)
    ensures BidsFor(a + (c + [x]), id) == BidsFor(a, id) + BidsFor(c + [x], id)
  {
    ConcatAssoc(a, c, [x]);
    BidsForAppend(a + c, x, id);
    BidsForAppend(c, x, id);
    ConcatAssoc(BidsFor(a, id), BidsFor(c, id), if x.auctionId == id then [x] else []);
  }

  lemma ConcatAssoc<T>(p: seq<T>, q: seq<T>, r: seq<T>)
    ensures (p + q) + r == p + (q + r)
  {
  }

  predicate HasBids(bids: seq<Bid>, id: nat) {
    exists b | b in bids :: b.auctionId == id
  }

  /** The highest bid of a list, the earliest one among equals; `None` for no bids.
      This is the first row of `ORDER BY amount DESC LIMIT 1`, whose order
      among equal amounts the database leaves open. */
  function MaxBid(xs: seq<Bid>): (r: Option<Bid>)
    ensures r.None? <==> |xs| == 0
    ensures r.Some? ==> r.value in xs
    ensures r.Some? ==> forall b | b in xs :: b.amount <= r.value.amount
  {
    if |xs| == 0 then None
    else
      var best := MaxBid(xs[..|xs| - 1]);
      var last := xs[|xs| - 1];
      if best.None? || last.amount > best.value.amount then Some(last) else best
  }

  /** The winning bid of auction `id`: a bid of that auction whose amount no
      other bid of it exceeds, or `None` when it has no bids. */
  function WinningBid(bids: seq<Bid>, id: nat): (r: Option<Bid>)
    ensures r.None? <==> !HasBids(bids, id)
    ensures r.Some? ==> r.value in bids && r.value.auctionId == id
    ensures r.Some? ==> forall b | b in bids && b.auctionId == id :: b.amount <= r.value.amount
  {
    var xs := BidsFor(bids, id);
    assert HasBids(bids, id) ==> |xs| > 0 by {
      if HasBids(bids, id) {
        var b :| b in bids && b.auctionId == id;
        assert b in xs;
      }
    }
    MaxBid(xs)
  }

  /** A transaction recorded for auction `id`. The `findOne` by auction has no
      `order`, so the database picks the row; the model takes the first. In
      every reachable store an auction has at most one transaction. */
  function FindTransaction(ts: seq<Transaction>, id: nat): (r: Option<nat>)
    ensures r.Some? ==> r.value < |ts| && ts[r.value].auctionId == id
    ensures r.Some? ==> forall k | 0 <= k < r.value :: ts[k].auctionId != id
    ensures r.None? <==> forall k | 0 <= k < |ts| :: ts[k].auctionId != id
  {
    if |ts| == 0 then None
    else if ts[0].auctionId == id then Some(0)
    else
      match FindTransaction(ts[1..], id)
      case None => None
      case Some(k) => Some(k + 1)
  }

  /** Looking an auction up after transactions none of which belongs to it
      finds what the lookup in the remainder finds, shifted past them. */
  lemma {:induction false} FindTransactionAppend(a: seq<Transaction>, b: seq<Transaction>, id: nat)
    requires forall k | 0 <= k < |a| :: a[k].auctionId != id
    ensures FindTransaction(b, id).None? ==> FindTransaction(a + b, id).None?
    ensures FindTransaction(b, id).Some? ==> FindTransaction(a + b, id) == Some(|a| + FindTransaction(b, id).value)
  {
    if |a| == 0 {
      assert a + b == b;
    } else {
      var ab := a + b;
      assert ab[0] == a[0] && ab[1..] == a[1..] + b;
      FindTransactionAppend(a[1..], b, id);
    }
  }

  /** Bid amounts rise strictly in ledger order. */
  predicate StrictlyIncreasing(xs: seq<Bid>) {
    forall i, j | 0 <= i < j < |xs| :: xs[i].amount < xs[j].amount
  }

  /** In a strictly increasing ledger the winning bid is the last one accepted. */
  lemma {:induction false} MaxOfIncreasingIsLast(xs: seq<Bid>)
    requires StrictlyIncreasing(xs) && |xs| > 0
    ensures MaxBid(xs) == Some(xs[|xs| - 1])
  {
    var best := MaxBid(xs[..|xs| - 1]);
    if best.Some? {
      var k :| 0 <= k < |xs| - 1 && xs[k] == best.value;
    }
  }

  lemma BidsForAppend(bids: seq<Bid>, b: Bid, id: nat)
    ensures BidsFor(bids + [b], id) == BidsFor(bids, id) + (if b.auctionId == id then [b] else [])
  {
    assert (bids + [b])[..|bids|] == bids;
  }

  /** The sum of the final amounts of a list of transactions. */
  function TotalValue(ts: seq<Transaction>): int {
    if |ts| == 0 then 0 else TotalValue(ts[..|ts| - 1]) + ts[|ts| - 1].finalAmount
  }

  /** The positions of the rows that `keep` accepts, in ascending order: a
      `findAll` with a `where` clause. Without an `order` option the database
      chooses the order; the model takes ascending id order. */
  function Select<T>(rows: seq<T>, keep: T -> bool): (r: seq<nat>)
    ensures forall i :: i in r <==> 0 <= i < |rows| && keep(rows[i])
    ensures forall k, l | 0 <= k < l < |r| :: r[k] < r[l]
    ensures forall k | 0 <= k < |r| :: r[k] < |rows|
  {
    if |rows| == 0 then []
    else
      var n := |rows| - 1;
      Select(rows[..n], keep) + (if keep(rows[n]) then [n] else [])
  }

  /** The positions of the rows that `keep` accepts, newest first: a `findAll`
      with a `where` clause ordered by `createdAt DESC`. */
  function SelectNewestFirst<T>(rows: seq<T>, keep: T -> bool): (r: seq<nat>)
    ensures forall i :: i in r <==> 0 <= i < |rows| && keep(rows[i])
    ensures forall k, l | 0 <= k < l < |r| :: r[k] > r[l]
    ensures forall k | 0 <= k < |r| :: r[k] < |rows|
  {
    if |rows| == 0 then []
    else
      var n := |rows| - 1;
      (if keep(rows[n]) then [n] else []) + SelectNewestFirst(rows[..n], keep)
  }

  /** The number of rows that `keep` accepts: a `count` with a `where` clause. */
  function Count<T>(rows: seq<T>, keep: T -> bool): (r: nat)
    ensures r <= |rows|
  {
    if |rows| == 0 then 0
    else Count(rows[..|rows| - 1], keep) + (if keep(rows[|rows| - 1]) then 1 else 0)
  }

  /** The positions of the rows that `keep` accepts. */
  ghost function Accepted<T>(rows: seq<T>, keep: T -> bool): set<nat>
  {
    set i | 0 <= i < |rows| && keep(rows[i])
  }

  /** The count is the number of positions whose row `keep` accepts. */
  lemma {:induction false} CountIsSize<T>(rows: seq<T>, keep: T -> bool)
    ensures Count(rows, keep) == |Accepted(rows, keep)|
  {
    if |rows| > 0 {
      var n := |rows| - 1;
      CountIsSize(rows[..n], keep);
      if keep(rows[n]) {
        assert Accepted(rows, keep) == Accepted(rows[..n], keep) + {n};
      } else {
        assert Accepted(rows, keep) == Accepted(rows[..n], keep);
      }
    }
  }
}

=== FILE: outcomes.dfy ===
/** Failure-compatible result types shared by every handler of the marketplace.
    Express status codes are not modelled; each rejection the handlers send
    is one `Error` constructor, named after the message the handler returns. */
module Outcomes {

  datatype Option<+T> = None | Some(value: T)

  /** The reasons a handler refuses a request. The HTTP status each one is
      sent with is given in the comment. */
  datatype Error =
    | NotFound            // 404: auction, user or payment id unknown
    | NotActive           // 400: "Auction is not active"
    | AuctionEnded        // 400: "Auction has ended"
    | BidTooLow           // 400: not above both current highest bid and base price
    | NotTrader           // 403: the caller is not a trader ("Only traders can initiate payments")
    | NotClosed           // 400: "Auction must be closed to process payment"
    | NotWinner           // 403: "You did not win this auction"
    | AlreadyPaid         // 400: "Payment already completed for this auction"
    | NotAuthorized       // 403: "Not authorized to update this payment"
    | UserExists          // 400: "User already exists"
    | InvalidCredentials  // 400: unknown email or wrong password
    | PendingApproval     // 403: "Account pending approval"
    | InvalidInput        // 400: the request body fails its validation schema

  /** A handler's answer: a value (often the new store) or the reason it refused.
      A refused request never changes the store, so `Err` carries no state. */
  datatype Result<+T> = Ok(value: T) | Err(error: Error) {
    predicate IsFailure() {
      Err?
    }

    function PropagateFailure<U>(): Result<U>
      requires Err?
    {
      Err(error)
    }

    function Extract(): T
      requires Ok?
    {
      value
    }
  }
}

=== FILE: payment_routes.dfy ===
/** Payment initiation and payment-status updates (server/routes/paymentRoutes.js).
    A "payment" here is the auction's Transaction record. */
module PaymentRoutes {
  import opened Outcomes
  import opened Market

  /** `POST /create`: only a trader; only for a known auction that is closed
      or completed; only by the trader of the highest bid. An existing
      transaction of the auction is refused when already paid and otherwise
      only gets the new method, notes and date; without one, a single pending
      transaction at the highest bid is created. */
  function CreatePayment(s: Store, caller: Caller, auctionId: nat, paymentMethod: Option<string>,
                         notes: Option<string>, now: int): (r: Result<Store>)
    ensures caller.role != Trader ==> r == Err(NotTrader)
    ensures caller.role == Trader && auctionId >= |s.auctions| ==> r == Err(NotFound)
    ensures caller.role == Trader && auctionId < |s.auctions|
            && s.auctions[auctionId].status != Closed && s.auctions[auctionId].status != Completed
            ==> r == Err(NotClosed)
    ensures caller.role == Trader && auctionId < |s.auctions| && !HasBids(s.bids, auctionId)
            && (s.auctions[auctionId].status == Closed || s.auctions[auctionId].status == Completed)
            ==> r == Err(NotWinner)
    ensures caller.role == Trader && auctionId < |s.auctions|
            && (s.auctions[auctionId].status == Closed || s.auctions[auctionId].status == Completed)
            && WinningBid(s.bids, auctionId).Some? && WinningBid(s.bids, auctionId).value.traderId != caller.id
            ==> r == Err(NotWinner)
    ensures caller.role == Trader && auctionId < |s.auctions|
            && (s.auctions[auctionId].status == Closed || s.auctions[auctionId].status == Completed)
            && WinningBid(s.bids, auctionId).Some? && WinningBid(s.bids, auctionId).value.traderId == caller.id
            && FindTransaction(s.transactions, auctionId).Some?
            && s.transactions[FindTransaction(s.transactions, auctionId).value].paymentStatus == PaidPayment
            ==> r == Err(AlreadyPaid)
    // the winner's request succeeds exactly when no paid transaction stands in the way
    ensures r.Ok? <==>
      && caller.role == Trader
      && auctionId < |s.auctions|
      && (s.auctions[auctionId].status == Closed || s.auctions[auctionId].status == Completed)
      && WinningBid(s.bids, auctionId).Some?
      && WinningBid(s.bids, auctionId).value.traderId == caller.id
      && (FindTransaction(s.transactions, auctionId).None?
          || s.transactions[FindTransaction(s.transactions, auctionId).value].paymentStatus != PaidPayment)
    ensures r.Ok? ==> r.value.auctions == s.auctions && r.value.bids == s.bids && r.value.users == s.users
    // an existing transaction is updated in place, never duplicated
    ensures r.Ok? && FindTransaction(s.transactions, auctionId).Some? ==>
      var k := FindTransaction(s.transactions, auctionId).value;
      && s.transactions[k].paymentStatus != PaidPayment
      && |r.value.transactions| == |s.transactions|
      && r.value.transactions[k] == s.transactions[k].(paymentMethod := paymentMethod, notes := notes, transactionDate := now)
      && (forall j | 0 <= j < |s.transactions| && j != k :: r.value.transactions[j] == s.transactions[j])
    ensures FindTransaction(s.transactions, auctionId).Some?
            && s.transactions[FindTransaction(s.transactions, auctionId).value].paymentStatus == PaidPayment
            ==> r.Err?
    // without one, exactly one pending transaction at the highest bid is appended
    ensures r.Ok? && FindTransaction(s.transactions, auctionId).None? ==>
      && |r.value.transactions| == |s.transactions| + 1
      && r.value.transactions[..|s.transactions|] == s.transactions
      && r.value.transactions[|s.transactions|].auctionId == auctionId
      && r.value.transactions[|s.transactions|].traderId == caller.id
      && r.value.transactions[|s.transactions|].farmerId == s.auctions[auctionId].farmerId
      && r.value.transactions[|s.transactions|].finalAmount == WinningBid(s.bids, auctionId).value.amount
      && r.value.transactions[|s.transactions|].paymentStatus == PendingPayment
  {
    if caller.role != Trader then Err(NotTrader)
    else if auctionId >= |s.auctions| then Err(NotFound)
    else
      var a := s.auctions[auctionId];
      if a.status != Closed && a.status != Completed then Err(NotClosed)
      else
        match WinningBid(s.bids, auctionId)
        case None => Err(NotWinner)
        case Some(highest) =>
          if highest.traderId != caller.id then Err(NotWinner)
          else
            match FindTransaction(s.transactions, auctionId)
            case Some(k) =>
              if s.transactions[k].paymentStatus == PaidPayment then Err(AlreadyPaid)
              else
                var t := s.transactions[k].(paymentMethod := paymentMethod, notes := notes, transactionDate := now);
                Ok(s.(transactions := s.transactions[k := t]))
            case None =>
              var t := Transaction(auctionId, a.farmerId, caller.id, highest.amount, PendingPayment,
                                   paymentMethod, notes, now);
              Ok(s.(transactions := s.transactions + [t]))
  }

  /** The number of transactions recorded for auction `id`. */
  function TransactionsOf(ts: seq<Transaction>, id: nat): nat {
    Count(ts, (t: Transaction) => t.auctionId == id)
  }

  lemma {:induction false} NoTransactionCountsZero(ts: seq<Transaction>, id: nat)
    requires forall k | 0 <= k < |ts| :: ts[k].auctionId != id
    ensures TransactionsOf(ts, id) == 0
  {
    if |ts| > 0 {
      NoTransactionCountsZero(ts[..|ts| - 1], id);
    }
  }

  lemma {:induction false} UpdateKeepsCount(ts: seq<Transaction>, k: nat, t: Transaction, id: nat)
    requires k < |ts| && t.auctionId == ts[k].auctionId
    ensures TransactionsOf(ts[k := t], id) == TransactionsOf(ts, id)
  {
    if |ts| > 0 {
      var n := |ts| - 1;
      if k < n {
        UpdateKeepsCount(ts[..n], k, t, id);
        assert ts[k := t][..n] == ts[..n][k := t];
      } else {
        assert ts[k := t][..n] == ts[..n];
      }
    }
  }

  lemma TransactionsOfAppend(ts: seq<Transaction>, t: Transaction, id: nat)
    ensures TransactionsOf(ts + [t], id) == TransactionsOf(ts, id) + (if t.auctionId == id then 1 else 0)
  {
    assert (ts + [t])[..|ts|] == ts;
  }

  /** Whatever the store held, this route leaves an auction with at most one
      transaction if it had at most one before: it creates one only when none
      exists. */
  lemma CreatePaymentNeverDuplicates(s: Store, caller: Caller, auctionId: nat, paymentMethod: Option<string>,
                                     notes: Option<string>, now: int, id: nat)
    requires TransactionsOf(s.transactions, id) <= 1
    requires CreatePayment(s, caller, auctionId, paymentMethod, notes, now).Ok?
    ensures TransactionsOf(CreatePayment(s, caller, auctionId, paymentMethod, notes, now).value.transactions, id) <= 1
  {
    var r := CreatePayment(s, caller, auctionId, paymentMethod, notes, now).value;
    match FindTransaction(s.transactions, auctionId)
    case Some(k) =>
      var t := s.transactions[k].(paymentMethod := paymentMethod, notes := notes, transactionDate := now);
      assert r.transactions == s.transactions[k := t];
      UpdateKeepsCount(s.transactions, k, t, id);
    case None =>
      var t := r.transactions[|s.transactions|];
      TransactionsOfAppend(s.transactions, t, id);
      if t.auctionId == id {
        NoTransactionCountsZero(s.transactions, id);
      }
  }

  /** `PUT /update-status/:id`: an unknown payment is not found; only the
      payment's farmer or an admin may set its status, which is the only
      field that changes. */
  function UpdatePaymentStatus(s: Store, caller: Caller, paymentId: nat, status: string): (r: Result<Store>)
    ensures paymentId >= |s.transactions| ==> r == Err(NotFound)
    ensures paymentId < |s.transactions| && caller.id != s.transactions[paymentId].farmerId && caller.role != Admin
            ==> r == Err(NotAuthorized)
    ensures r.Ok? <==> paymentId < |s.transactions| && (caller.id == s.transactions[paymentId].farmerId || caller.role == Admin)
    ensures r.Ok? ==>
      && |r.value.transactions| == |s.transactions|
      && r.value.transactions[paymentId] == s.transactions[paymentId].(paymentStatus := status)
      && (forall j | 0 <= j < |s.transactions| && j != paymentId :: r.value.transactions[j] == s.transactions[j])
      && r.value.auctions == s.auctions && r.value.bids == s.bids && r.value.users == s.users
  {
    if paymentId >= |s.transactions| then Err(NotFound)
    else if caller.id != s.transactions[paymentId].farmerId && caller.role != Admin then Err(NotAuthorized)
    else Ok(s.(transactions := s.transactions[paymentId := s.transactions[paymentId].(paymentStatus := status)]))
  }
}

=== FILE: schemas.dfy ===
/** The request-body validation schemas (server/validators/schemas.js) as
    validity predicates. Each text field with `.trim()` is checked after
    JavaScript's trim; a string field that is present must not be empty. */
module Schemas {
  import opened Outcomes
  import opened Strings
  import opened Market

  /** The body of a create-auction request. */
  datatype AuctionInput = AuctionInput(
    variety: string,
    quantity: int,
    qualityGrade: string,
    basePrice: int,
    location: string,
    endTime: int,
    image: Option<string>)

  /** `auctionSchema`: variety of 2 to 50 characters, quantity from 1 to
      100000, quality grade of 1 to 20 characters, base price at least 1,
      location of 2 to 200 characters (all after trimming), and an end time
      strictly after the current time. The image may be absent or empty. */
  predicate ValidAuction(input: AuctionInput, now: int) {
    && 2 <= |Trim(input.variety)| <= 50
    && 1 <= input.quantity <= 100000
    && 1 <= |Trim(input.qualityGrade)| <= 20
    && input.basePrice >= 1
    && 2 <= |Trim(input.location)| <= 200
    && input.endTime > now
  }

  /** The input with the text fields that the schema trims already trimmed. */
  function TrimmedAuction(input: AuctionInput): (r: AuctionInput)
    ensures r.variety == Trim(input.variety) && r.qualityGrade == Trim(input.qualityGrade)
    ensures r.location == Trim(input.location)
    ensures r.quantity == input.quantity && r.basePrice == input.basePrice
    ensures r.endTime == input.endTime && r.image == input.image
  {
    input.(variety := Trim(input.variety), qualityGrade := Trim(input.qualityGrade), location := Trim(input.location))
  }

  /** The schema judges the trimmed text, so trimming the fields beforehand
      never changes its verdict. */
  lemma {:induction false} ValidAuctionIgnoresPadding(input: AuctionInput, now: int)
    ensures ValidAuction(TrimmedAuction(input), now) <==> ValidAuction(input, now)
  {
    TrimIdempotent(input.variety);
    TrimIdempotent(input.qualityGrade);
    TrimIdempotent(input.location);
  }

  /** `bidSchema`: an auction id of exactly 24 hexadecimal digits and an
      amount of at least 1. */
  predicate ValidBid(auctionId: string, amount: int) {
    && |auctionId| == 24
    && (forall k | 0 <= k < |auctionId| :: IsHexDigit(auctionId[k]))
    && amount >= 1
  }

  /** The pattern `^[+]?[\d\s-()]+$`: an optional leading '+' followed by at
      least one digit, white-space, '-', '(' or ')' character. */
  predicate PhonePattern(p: string) {
    |PhoneBody(p)| > 0 && AllPhoneChars(PhoneBody(p))
  }

  /** The number without its optional leading '+'. */
  function PhoneBody(p: string): string {
    if |p| > 0 && p[0] == '+' then p[1..] else p
  }

  predicate AllPhoneChars(t: string) {
    forall k | 0 <= k < |t| :: IsPhoneChar(t[k])
  }

  /** A '+' in front of a number is accepted exactly when the number itself
      is accepted and does not already begin with '+'. */
  lemma PhonePlusPrefix(p: string)
    ensures PhonePattern("+" + p) <==> PhonePattern(p) && (|p| > 0 ==> p[0] != '+')
  {
    var q := "+" + p;
    assert q[0] == '+' && q[1..] == p;
    assert PhoneBody(q) == p;
    if |p| > 0 && p[0] == '+' {
      assert !IsPhoneChar(p[0]);
    }
  }

  /** The body of a registration request. */
  datatype RegisterInput = RegisterInput(
    name: string,
    email: string,
    password: string,
    role: Role,
    phone: Option<string>,
    farmLocation: Option<string>,
    apmcLicense: Option<string>)

  /** A present optional text that `.trim()` leaves non-empty. */
  predicate FilledIn(p: Option<string>) {
    p.Some? && |Trim(p.value)| > 0
  }

  /** `registerSchema`: a name of 2 to 100 characters after trimming, a
      non-blank e-mail, a password of 6 to 128 characters, the role farmer or
      trader, a phone number (when sent) matching the phone pattern, a farm
      location required of farmers and a licence number required of traders;
      either of the last two, when sent by the other role, must still be a
      non-blank text. */
  predicate ValidRegister(input: RegisterInput) {
    && 2 <= |Trim(input.name)| <= 100
    && |Trim(input.email)| > 0
    && 6 <= |input.password| <= 128
    && (input.role == Farmer || input.role == Trader)
    && (input.phone.Some? ==> |input.phone.value| > 0 && PhonePattern(input.phone.value))
    && (input.role == Farmer || input.farmLocation.Some? ==> FilledIn(input.farmLocation))
    && (input.role == Trader || input.apmcLicense.Some? ==> FilledIn(input.apmcLicense))
  }

  /** The role-specific field of a valid registration is always there. */
  lemma ValidRegisterHasRoleField(input: RegisterInput)
    requires ValidRegister(input)
    ensures input.role != Admin
    ensures input.role == Farmer ==> input.farmLocation.Some? && |Trim(input.farmLocation.value)| > 0
    ensures input.role == Trader ==> input.apmcLicense.Some? && |Trim(input.apmcLicense.value)| > 0
  {
  }

  /** The other role's field is optional: a valid registration stays valid
      without it. */
  lemma OtherRoleFieldOptional(input: RegisterInput)
    requires ValidRegister(input)
    ensures input.role == Trader ==> ValidRegister(input.(farmLocation := None))
    ensures input.role == Farmer ==> ValidRegister(input.(apmcLicense := None))
    ensures !ValidRegister(input.(farmLocation := None)) <==> input.role == Farmer
    ensures !ValidRegister(input.(apmcLicense := None)) <==> input.role == Trader
  {
  }

  /** `loginSchema`: both fields present and non-empty. */
  predicate ValidLogin(email: string, password: string) {
    |email| > 0 && |password| > 0
  }
}

=== FILE: stats_controller.dfy ===
/** Public market statistics over completed auctions
    (server/controllers/statsController.js). */
module StatsController {
  import opened Market

  /** Sold prices and volumes of a list of completed auctions. The weighted
      average price is a rounded floating-point quotient and is not part of
      this model. */
  datatype MarketStats = MarketStats(maxPrice: int, totalVolume: int, count: nat)

  /** The ids of the completed auctions: `findAll` where the status is
      `completed`. */
  function CompletedAuctions(s: Store): (r: seq<nat>)
    ensures forall k | 0 <= k < |r| :: r[k] < |s.auctions|
    ensures forall i :: i in r <==> 0 <= i < |s.auctions| && s.auctions[i].status == Completed
    ensures forall k, l | 0 <= k < l < |r| :: r[k] < r[l]
  {
    Select(s.auctions, (a: Auction) => a.status == Completed)
  }

  /** The auction records with the listed ids, in list order. */
  function Records(s: Store, ids: seq<nat>): (r: seq<Auction>)
    requires forall k | 0 <= k < |ids| :: ids[k] < |s.auctions|
    ensures |r| == |ids|
    ensures forall k | 0 <= k < |ids| :: r[k] == s.auctions[ids[k]]
  {
    if |ids| == 0 then [] else Records(s, ids[..|ids| - 1]) + [s.auctions[ids[|ids| - 1]]]
  }

  /** The auctions of a list completed at or after the start of today. */
  function TodayAuctions(xs: seq<Auction>, startOfToday: int): (r: seq<Auction>)
    ensures |r| <= |xs|
    ensures forall a :: a in r <==> a in xs && a.updatedAt >= startOfToday
  {
    if |xs| == 0 then []
    else
      var n := |xs| - 1;
      var before := TodayAuctions(xs[..n], startOfToday);
      if xs[n].updatedAt >= startOfToday then before + [xs[n]] else before
  }

  /** The auctions of a list completed before the start of today. */
  function Earlier(xs: seq<Auction>, startOfToday: int): (r: seq<Auction>)
    ensures |r| <= |xs|
    ensures forall a :: a in r <==> a in xs && a.updatedAt < startOfToday
  {
    if |xs| == 0 then []
    else
      var n := |xs| - 1;
      var before := Earlier(xs[..n], startOfToday);
      if xs[n].updatedAt < startOfToday then before + [xs[n]] else before
  }

  /** Total quantity of a list of auctions. */
  function Volume(xs: seq<Auction>): int {
    if |xs| == 0 then 0 else Volume(xs[..|xs| - 1]) + xs[|xs| - 1].quantity
  }

  /** Highest sold price (the current highest bid) in a list of auctions. */
  function MaxPrice(xs: seq<Auction>): (r: int)
    requires |xs| > 0
    ensures forall a | a in xs :: a.currentHighestBid <= r
    ensures exists a | a in xs :: a.currentHighestBid == r
  {
    var last := xs[|xs| - 1].currentHighestBid;
    if |xs| == 1 then last
    else
      var rest := MaxPrice(xs[..|xs| - 1]);
      assert forall a | a in xs[..|xs| - 1] :: a in xs;
      if last > rest then last else rest
  }

  /** `calculateStats`: all zero for no auctions; otherwise the highest sold
      price, the total volume and the number of auctions. */
  function CalculateStats(xs: seq<Auction>): (r: MarketStats)
    ensures |xs| == 0 ==> r == MarketStats(0, 0, 0)
    ensures r.count == |xs|
    ensures r.totalVolume == Volume(xs)
    ensures |xs| > 0 ==> forall a | a in xs :: a.currentHighestBid <= r.maxPrice
    ensures |xs| > 0 ==> exists a | a in xs :: a.currentHighestBid == r.maxPrice
  {
    if |xs| == 0 then MarketStats(0, 0, 0)
    else MarketStats(MaxPrice(xs), Volume(xs), |xs|)
  }

  /** One row of the response's auction list. */
  datatype SaleRow = SaleRow(
    id: nat,
    variety: string,
    qualityGrade: string,
    quantity: int,
    basePrice: int,
    winningBid: int,
    location: string,
    farmerName: string,
    completedDate: int)

  /** The farmer's name, or "Unknown" when the farmer is not on record. */
  function FarmerName(s: Store, farmerId: nat): (r: string)
    ensures farmerId < |s.users| ==> r == s.users[farmerId].name
    ensures farmerId >= |s.users| ==> r == "Unknown"
  {
    if farmerId < |s.users| then s.users[farmerId].name else "Unknown"
  }

  /** The row reporting auction `id`. */
  function Row(s: Store, id: nat): (r: SaleRow)
    requires id < |s.auctions|
    ensures r.id == id && r.winningBid == s.auctions[id].currentHighestBid
    ensures r.completedDate == s.auctions[id].updatedAt
    ensures r.farmerName == FarmerName(s, s.auctions[id].farmerId)
  {
    var a := s.auctions[id];
    SaleRow(id, a.variety, a.qualityGrade, a.quantity, a.basePrice, a.currentHighestBid, a.location,
            FarmerName(s, a.farmerId), a.updatedAt)
  }

  function Rows(s: Store, ids: seq<nat>): (r: seq<SaleRow>)
    requires forall k | 0 <= k < |ids| :: ids[k] < |s.auctions|
    ensures |r| == |ids|
    ensures forall k | 0 <= k < |ids| :: r[k] == Row(s, ids[k])
  {
    if |ids| == 0 then [] else Rows(s, ids[..|ids| - 1]) + [Row(s, ids[|ids| - 1])]
  }

  /** Completion dates never rise along the list. */
  predicate ByDateDesc(rows: seq<SaleRow>) {
    forall k, l | 0 <= k < l < |rows| :: rows[k].completedDate >= rows[l].completedDate
  }

  /** Inserts `x` into rows ordered by completion date, latest first. */
  function InsertByDate(x: SaleRow, rows: seq<SaleRow>): (r: seq<SaleRow>)
    requires ByDateDesc(rows)
    ensures |r| == |rows| + 1
    ensures ByDateDesc(r)
    ensures multiset(r) == multiset(rows) + multiset{x}
    ensures r[0] == x || (|rows| > 0 && r[0] == rows[0])
  {
    if |rows| == 0 || x.completedDate >= rows[0].completedDate then [x] + rows
    else
      assert rows == [rows[0]] + rows[1..];
      [rows[0]] + InsertByDate(x, rows[1..])
  }

  /** The rows ordered by completion date, latest first: `ORDER BY updatedAt DESC`. */
  function SortByDateDesc(rows: seq<SaleRow>): (r: seq<SaleRow>)
    ensures |r| == |rows|
    ensures ByDateDesc(r)
    ensures multiset(r) == multiset(rows)
  {
    if |rows| == 0 then []
    else
      assert rows == rows[..|rows| - 1] + [rows[|rows| - 1]];
      InsertByDate(rows[|rows| - 1], SortByDateDesc(rows[..|rows| - 1]))
  }

  datatype MarketReport = MarketReport(overall: MarketStats, today: MarketStats, sales: seq<SaleRow>)

  /** Every row of the completed auctions, in any order that keeps them all,
      reports a completed auction with that auction's own data. */
  lemma CompletedRowsSound(s: Store, sales: seq<SaleRow>)
    requires multiset(sales) == multiset(Rows(s, CompletedAuctions(s)))
    ensures forall k | 0 <= k < |sales| ::
      sales[k].id < |s.auctions| && s.auctions[sales[k].id].status == Completed && sales[k] == Row(s, sales[k].id)
  {
    var ids := CompletedAuctions(s);
    var rows := Rows(s, ids);
    forall k | 0 <= k < |sales|
      ensures sales[k].id < |s.auctions| && s.auctions[sales[k].id].status == Completed && sales[k] == Row(s, sales[k].id)
    {
      assert sales[k] in multiset(rows);
      var j :| 0 <= j < |rows| && rows[j] == sales[k];
      assert ids[j] in ids;
    }
  }

  /** Every completed auction has a row among the rows of the completed
      auctions, in any order that keeps them all. */
  lemma CompletedRowsComplete(s: Store, sales: seq<SaleRow>)
    requires multiset(sales) == multiset(Rows(s, CompletedAuctions(s)))
    ensures forall i | 0 <= i < |s.auctions| && s.auctions[i].status == Completed ::
      exists k | 0 <= k < |sales| :: sales[k].id == i
  {
    var ids := CompletedAuctions(s);
    var rows := Rows(s, ids);
    forall i | 0 <= i < |s.auctions| && s.auctions[i].status == Completed
      ensures exists k | 0 <= k < |sales| :: sales[k].id == i
    {
      var j :| 0 <= j < |ids| && ids[j] == i;
      assert rows[j] in multiset(sales);
      var k :| 0 <= k < |sales| && sales[k] == rows[j];
    }
  }

  /** `getMarketStats`: statistics over all completed auctions and over those
      completed today, and one row per completed auction, latest first. */
  function GetMarketStats(s: Store, startOfToday: int): (r: MarketReport)
    ensures r.overall.count == |r.sales|
    ensures r.today.count <= r.overall.count
    ensures forall k | 0 <= k < |r.sales| ::
      r.sales[k].id < |s.auctions| && s.auctions[r.sales[k].id].status == Completed
      && r.sales[k] == Row(s, r.sales[k].id)
    ensures forall i | 0 <= i < |s.auctions| && s.auctions[i].status == Completed ::
      exists k | 0 <= k < |r.sales| :: r.sales[k].id == i
    ensures forall k, l | 0 <= k < l < |r.sales| :: r.sales[k].completedDate >= r.sales[l].completedDate
    ensures multiset(r.sales) == multiset(Rows(s, CompletedAuctions(s)))
    ensures r.overall == CalculateStats(Records(s, CompletedAuctions(s)))
    ensures r.today == CalculateStats(TodayAuctions(Records(s, CompletedAuctions(s)), startOfToday))
  {
    var completed := CompletedAuctions(s);
    var records := Records(s, completed);
    var sales := SortByDateDesc(Rows(s, completed));
    CompletedRowsSound(s, sales);
    CompletedRowsComplete(s, sales);
    MarketReport(CalculateStats(records), CalculateStats(TodayAuctions(records, startOfToday)), sales)
  }

  /** Every auction completed today is among all completed auctions, so
      today's highest price never exceeds the overall one. */
  lemma TodayMaxAtMostOverall(s: Store, startOfToday: int)
    ensures var r := GetMarketStats(s, startOfToday);
      r.today.count > 0 ==> r.today.maxPrice <= r.overall.maxPrice
  {
    var records := Records(s, CompletedAuctions(s));
    var today := TodayAuctions(records, startOfToday);
    var r := GetMarketStats(s, startOfToday);
    assert r.overall == CalculateStats(records) && r.today == CalculateStats(today);
    if |today| > 0 {
      var a :| a in today && a.currentHighestBid == r.today.maxPrice;
      assert a in records;
    }
  }

  /** The volume of a list is the volume completed today plus the volume
      completed before today. */
  lemma {:induction false} VolumeSplitsByDay(xs: seq<Auction>, startOfToday: int)
    ensures Volume(xs) == Volume(TodayAuctions(xs, startOfToday)) + Volume(Earlier(xs, startOfToday))
  {
    if |xs| > 0 {
      var n := |xs| - 1;
      var prefix := xs[..n];
      VolumeSplitsByDay(prefix, startOfToday);
      var t := TodayAuctions(prefix, startOfToday);
      var e := Earlier(prefix, startOfToday);
      if xs[n].updatedAt >= startOfToday {
        VolumeAppend(t, xs[n]);
      } else {
        VolumeAppend(e, xs[n]);
      }
    }
  }

  lemma VolumeAppend(xs: seq<Auction>, a: Auction)
    ensures Volume(xs + [a]) == Volume(xs) + a.quantity
  {
    assert (xs + [a])[..|xs|] == xs;
  }
}

=== FILE: strings.dfy ===
/** The string operations the handlers and validation schemas rely on:
    JavaScript's `String.prototype.trim`, substring search (the `%x%`
    pattern of a LIKE filter) and the character classes of the schemas'
    regular expressions. Strings are sequences of code points. */
module Strings {

  /** The characters JavaScript's `trim` and the regular-expression class `\s`
      treat as white space: the WhiteSpace and LineTerminator productions of
      ECMAScript (tab, line tabulation, form feed, space, no-break space, the
      byte-order mark, the Zs separators, line feed, carriage return, and the
      line and paragraph separators). */
  predicate IsJsWhitespace(c: char) {
    var n := c as int;
    n == 0x09 || n == 0x0A || n == 0x0B || n == 0x0C || n == 0x0D || n == 0x20
    || n == 0xA0 || n == 0x1680 || (0x2000 <= n <= 0x200A) || n == 0x2028
    || n == 0x2029 || n == 0x202F || n == 0x205F || n == 0x3000 || n == 0xFEFF
  }

  /** Drops leading white space. */
  function TrimStart(s: string): (r: string)
    ensures |r| <= |s| && r == s[|s| - |r|..]
    ensures forall k | 0 <= k < |s| - |r| :: IsJsWhitespace(s[k])
    ensures |r| > 0 ==> !IsJsWhitespace(r[0])
  {
    if |s| > 0 && IsJsWhitespace(s[0]) then TrimStart(s[1..]) else s
  }

  /** Drops trailing white space. */
  function TrimEnd(s: string): (r: string)
    ensures |r| <= |s| && r == s[..|r|]
    ensures forall k | |r| <= k < |s| :: IsJsWhitespace(s[k])
    ensures |r| > 0 ==> !IsJsWhitespace(r[|r| - 1])
  {
    if |s| > 0 && IsJsWhitespace(s[|s| - 1]) then TrimEnd(s[..|s| - 1]) else s
  }

  /** `r` is the piece of `s` starting at `i`, with only white space before
      and after it. */
  predicate Padded(s: string, r: string, i: int) {
    && 0 <= i <= |s| - |r|
    && r == s[i..i + |r|]
    && (forall k | 0 <= k < i :: IsJsWhitespace(s[k]))
    && (forall k | i + |r| <= k < |s| :: IsJsWhitespace(s[k]))
  }

  /** JavaScript's `trim`, which Joi's `.trim()` applies before checking
      lengths. What it keeps of `s` is `TrimIsPadded`'s. */
  function Trim(s: string): (r: string)
    ensures |r| <= |s|
    ensures |r| > 0 ==> !IsJsWhitespace(r[0]) && !IsJsWhitespace(r[|r| - 1])
  {
    TrimEnd(TrimStart(s))
  }

  /** The trimmed text is a piece of `s` with only white space around it. */
  lemma TrimIsPadded(s: string)
    ensures exists i :: Padded(s, Trim(s), i)
  {
    var t := TrimStart(s);
    PaddedOfParts(s, t, TrimEnd(t), |s| - |t|);
    assert Padded(s, Trim(s), |s| - |t|);
  }

  /** A piece trimmed at its end, of a suffix that follows only white space,
      is padded in the whole string. */
  lemma PaddedOfParts(s: string, t: string, r: string, i: int)
    requires 0 <= i <= |s| && t == s[i..] && |r| <= |t| && r == t[..|r|]
    requires forall k | 0 <= k < i :: IsJsWhitespace(s[k])
    requires forall k | |r| <= k < |t| :: IsJsWhitespace(t[k])
    ensures Padded(s, r, i)
  {
    forall k | i + |r| <= k < |s|
      ensures IsJsWhitespace(s[k])
    {
      assert s[k] == t[k - i];
    }
  }

  lemma TrimStartOfTrimmed(s: string)
    requires |s| > 0 ==> !IsJsWhitespace(s[0])
    ensures TrimStart(s) == s
  {
  }

  lemma TrimEndOfTrimmed(s: string)
    requires |s| > 0 ==> !IsJsWhitespace(s[|s| - 1])
    ensures TrimEnd(s) == s
  {
  }

  /** Trimming twice is trimming once. */
  lemma {:induction false} TrimIdempotent(s: string)
    ensures Trim(Trim(s)) == Trim(s)
  {
    var t := Trim(s);
    TrimStartOfTrimmed(t);
    TrimEndOfTrimmed(t);
  }

  /** Trimming removes only white space: a string without white space at
      either end is its own trim. */
  lemma {:induction false} TrimFixesTrimmed(s: string)
    requires |s| > 0 ==> !IsJsWhitespace(s[0]) && !IsJsWhitespace(s[|s| - 1])
    ensures Trim(s) == s
  {
    TrimStartOfTrimmed(s);
    TrimEndOfTrimmed(s);
  }

  /** `pat` occurs in `text` as a contiguous piece: the meaning of `LIKE '%pat%'`
      without wildcards in `pat`. */
  predicate Contains(text: string, pat: string) {
    exists k | 0 <= k <= |text| - |pat| :: OccursAt(text, pat, k)
  }

  predicate OccursAt(text: string, pat: string, k: int) {
    0 <= k <= |text| - |pat| && text[k..k + |pat|] == pat
  }

  predicate IsAsciiDigit(c: char) {
    '0' <= c <= '9'
  }

  /** The class `[0-9a-fA-F]`. */
  predicate IsHexDigit(c: char) {
    IsAsciiDigit(c) || ('a' <= c <= 'f') || ('A' <= c <= 'F')
  }

  /** The class `[\d\s-()]`: in a non-Unicode JavaScript pattern `\s-(` is not
      a range, so the class holds digits, white space, '-', '(' and ')'. */
  predicate IsPhoneChar(c: char) {
    IsAsciiDigit(c) || IsJsWhitespace(c) || c == '-' || c == '(' || c == ')'
  }
}

=== FILE: trader_controller.dfy ===
/** Browsing, auction details and bidding (server/controllers/traderController.js). */
module TraderController {
  import opened Outcomes
  import opened Strings
  import opened Market

  /** The query string of the browse request; a parameter is `Some` when it was sent. */
  datatype BrowseQuery = BrowseQuery(
    location: Option<string>,
    variety: Option<string>,
    minPrice: Option<int>,
    maxPrice: Option<int>)

  /** A text query parameter takes part in the filter only when it is truthy,
      that is, sent and non-empty. */
  predicate Given(p: Option<string>) {
    p.Some? && p.value != ""
  }

  predicate BrowseMatch(q: BrowseQuery, a: Auction) {
    && a.status == Active
    && (Given(q.location) ==> Contains(a.location, q.location.value))
    && (Given(q.variety) ==> Contains(a.variety, q.variety.value))
    && (q.minPrice.Some? ==> a.basePrice >= q.minPrice.value)
    && (q.maxPrice.Some? ==> a.basePrice <= q.maxPrice.value)
  }

  /** `browseAuctions`: the active auctions whose location and variety contain
      the given texts and whose base price lies in the given inclusive range,
      newest first. */
  function BrowseAuctions(s: Store, q: BrowseQuery): (r: seq<nat>)
    ensures forall i | i in r :: 0 <= i < |s.auctions| && s.auctions[i].status == Active
    ensures forall i | i in r :: q.minPrice.Some? ==> q.minPrice.value <= s.auctions[i].basePrice
    ensures forall i | i in r :: q.maxPrice.Some? ==> s.auctions[i].basePrice <= q.maxPrice.value
    ensures forall i | i in r :: Given(q.location) ==> Contains(s.auctions[i].location, q.location.value)
    ensures forall i | i in r :: Given(q.variety) ==> Contains(s.auctions[i].variety, q.variety.value)
    ensures forall i | 0 <= i < |s.auctions| && s.auctions[i].status == Active
                       && !Given(q.location) && !Given(q.variety) && q.minPrice.None? && q.maxPrice.None? :: i in r
    ensures forall i | 0 <= i < |s.auctions| && BrowseMatch(q, s.auctions[i]) :: i in r
    ensures forall k, l | 0 <= k < l < |r| :: r[k] > r[l]
  {
    SelectNewestFirst(s.auctions, a => BrowseMatch(q, a))
  }

  /** Amounts never rise along the list. */
  predicate ByAmountDesc(xs: seq<Bid>) {
    forall i, j | 0 <= i < j < |xs| :: xs[i].amount >= xs[j].amount
  }

  /** Inserts `b` into a list ordered by amount, highest first. */
  function InsertByAmount(b: Bid, xs: seq<Bid>): (r: seq<Bid>)
    requires ByAmountDesc(xs)
    ensures ByAmountDesc(r)
    ensures multiset(r) == multiset(xs) + multiset{b}
    ensures |r| == |xs| + 1
    ensures r[0] == b || (|xs| > 0 && r[0] == xs[0])
  {
    if |xs| == 0 || b.amount >= xs[0].amount then [b] + xs
    else
      assert xs == [xs[0]] + xs[1..];
      [xs[0]] + InsertByAmount(b, xs[1..])
  }

  /** The bids ordered by amount, highest first: `ORDER BY amount DESC`. */
  function SortByAmountDesc(xs: seq<Bid>): (r: seq<Bid>)
    ensures ByAmountDesc(r)
    ensures multiset(r) == multiset(xs)
  {
    if |xs| == 0 then []
    else
      assert xs == xs[..|xs| - 1] + [xs[|xs| - 1]];
      InsertByAmount(xs[|xs| - 1], SortByAmountDesc(xs[..|xs| - 1]))
  }

  /** `getAuctionById`: the auction and all of its bids, highest amount first. */
  function GetAuctionById(s: Store, id: nat): (r: Result<(Auction, seq<Bid>)>)
    ensures id >= |s.auctions| ==> r == Err(NotFound)
    ensures id < |s.auctions| ==> r.Ok? && r.value.0 == s.auctions[id]
    ensures r.Ok? ==> ByAmountDesc(r.value.1)
    ensures r.Ok? ==> forall b :: b in r.value.1 <==> b in s.bids && b.auctionId == id
    ensures r.Ok? ==> multiset(r.value.1) == multiset(BidsFor(s.bids, id))
  {
    if id >= |s.auctions| then Err(NotFound)
    else
      var sorted := SortByAmountDesc(BidsFor(s.bids, id));
      assert forall b :: b in sorted <==> b in multiset(sorted);
      Ok((s.auctions[id], sorted))
  }

  function Reverse(xs: seq<Bid>): (r: seq<Bid>)
    ensures |r| == |xs|
    ensures forall k | 0 <= k < |xs| :: r[k] == xs[|xs| - 1 - k]
  {
    if |xs| == 0 then [] else [xs[|xs| - 1]] + Reverse(xs[..|xs| - 1])
  }

  /** On a ledger whose amounts rise strictly, ordering by amount is reading
      the ledger backwards. */
  lemma {:induction false} SortOfIncreasingIsReverse(xs: seq<Bid>)
    requires StrictlyIncreasing(xs)
    ensures SortByAmountDesc(xs) == Reverse(xs)
  {
    if |xs| > 0 {
      var n := |xs| - 1;
      var prefix := xs[..n];
      assert StrictlyIncreasing(prefix);
      SortOfIncreasingIsReverse(prefix);
      var rest := SortByAmountDesc(prefix);
      assert |rest| > 0 ==> rest[0] == prefix[n - 1];
    }
  }

  /** `placeBid`. The checks run in this order: unknown auction, auction not
      active, current time after the end time (a bid at the end time itself is
      accepted), amount not above both the current highest bid and the base
      price. An accepted bid is appended to the ledger and becomes the
      auction's current highest bid; nothing else changes. The caller's role
      is not checked. */
  function PlaceBid(s: Store, traderId: nat, auctionId: nat, amount: int, now: int): (r: Result<Store>)
    ensures auctionId >= |s.auctions| ==> r == Err(NotFound)
    ensures auctionId < |s.auctions| && s.auctions[auctionId].status != Active ==> r == Err(NotActive)
    ensures auctionId < |s.auctions| && s.auctions[auctionId].status == Active && now > s.auctions[auctionId].endTime
            ==> r == Err(AuctionEnded)
    ensures auctionId < |s.auctions| && s.auctions[auctionId].status == Active && now <= s.auctions[auctionId].endTime
            && (amount <= s.auctions[auctionId].currentHighestBid || amount <= s.auctions[auctionId].basePrice)
            ==> r == Err(BidTooLow)
    ensures r.Ok? <==>
      && auctionId < |s.auctions|
      && s.auctions[auctionId].status == Active
      && now <= s.auctions[auctionId].endTime
      && amount > s.auctions[auctionId].currentHighestBid
      && amount > s.auctions[auctionId].basePrice
    ensures r.Ok? ==>
      && r.value.bids == s.bids + [Bid(auctionId, traderId, amount, now)]
      && |r.value.auctions| == |s.auctions|
      && r.value.auctions[auctionId].currentHighestBid == amount
      && r.value.auctions[auctionId] == s.auctions[auctionId].(currentHighestBid := amount, updatedAt := now)
      && (forall j | 0 <= j < |s.auctions| && j != auctionId :: r.value.auctions[j] == s.auctions[j])
      && r.value.transactions == s.transactions
      && r.value.users == s.users
  {
    if auctionId >= |s.auctions| then Err(NotFound)
    else
      var a := s.auctions[auctionId];
      if a.status != Active then Err(NotActive)
      else if now > a.endTime then Err(AuctionEnded)
      else if amount <= a.currentHighestBid || amount <= a.basePrice then Err(BidTooLow)
      else
        Ok(s.(bids := s.bids + [Bid(auctionId, traderId, amount, now)],
              auctions := s.auctions[auctionId := a.(currentHighestBid := amount, updatedAt := now)]))
  }

  /** `placeBid` with the role check the bid route lacks: a caller who is not
      a trader is refused; a trader's bid is judged as `PlaceBid` judges it,
      under the caller's own id. */
  function PlaceBidAsTrader(s: Store, caller: Caller, auctionId: nat, amount: int, now: int): (r: Result<Store>)
    ensures caller.role != Trader ==> r == Err(NotTrader)
    ensures caller.role == Trader ==> r == PlaceBid(s, caller.id, auctionId, amount, now)
    ensures r.Ok? ==> r.value.bids == s.bids + [Bid(auctionId, caller.id, amount, now)] && caller.role == Trader
  {
    if caller.role != Trader then Err(NotTrader) else PlaceBid(s, caller.id, auctionId, amount, now)
  }
}
